=== FILE: README.md ===
# GitWriter reconcile-and-publish, modelled in Dafny

This project models the core of the state-store writer in `lib/writers/git.go`.
The writer persists workload files for one destination into a branch of a git
repository. Each call makes a fresh shallow clone, deletes files, writes files,
and commits and pushes only when the working copy changed.

The model is functional. The working copy is a map from file keys to byte
contents (`Worktree.Tree`). Git tracks files only, so a directory below the
clone's root exists exactly when some file lies beneath it. The root itself
always exists, even on a branch with no files: the clone is made into a fresh
temporary directory (`lib/writers/git.go:262`, `lib/writers/git.go:308`). A key is a path read relative to the
clone's root: cleaned, without a leading "/", and "." for the root itself.
This rests on an assumption about go-git's worktree filesystem, which the
writer code does not itself fix: that it is rooted at the clone. Under that
assumption "/a" and "a" name the same file, and a path whose cleaned form
starts with ".." climbs out of the clone and is refused: `Lstat` finds nothing
there, and removing or staging it fails. The
go-git and operating-system calls the writer makes are folded into one
`Types.Backend` value per call. That value holds:

- the checkout: the temporary root and the branch tip's files, or `None` when
  creating the temporary directory or cloning fails;
- the set of worktree paths whose removal, or whose write-and-stage, fails;
- whether the status, commit and push calls fail.

Modules:

- `Paths`: `filepath.Clean` and `filepath.Join` on a Unix host, worked over the
  names between separators, plus `strings.HasPrefix`.
- `Worktree`: the file map, `Lstat` as `Exists`, and `Worktree.Remove` as `RemoveTree`.
- `Types`: the writer, workloads, the backend, errors, and the effect of a nil-returning call.
- `Construction`: `NewGitWriter`.
- `Desired`: reference definitions, stated key by key, of the tree an update
  should leave: which keys are deleted, which are written (last write wins),
  and the containment guard `Admitted`.
- `Reconcile`: `update`, `deleteExistingFiles`, the create loop and `commitAndPush`.
  `UpdateFiles` only forwards to `update`, so `Reconcile.Update` models both.
- `Reader`: `ReadFile`.
- `Properties`: lemmas that relate calls to each other and to the reference definitions.

Three behaviours of the code:

- A workload whose path escapes the temporary root makes the call return nil
  after logging, not an error (`lib/writers/git.go:148-151`). The model returns `Ok(PathRejected(path))` and
  commits nothing.
- The containment guard is a plain string-prefix test. `Properties.PrefixGuardAdmitsSibling`
  shows it accepting a path that resolves to a sibling directory whose name
  starts with the root's name (`lib/writers/git.go:148`). Writing that file
  then goes outside the clone, and staging it fails, so the call returns an
  error (`Properties.SiblingEscapeFailsToStage`).
- `ReadFile` on a path that is a directory passes the existence check, and then
  reading it fails. That read error is not `FileNotFound` (`lib/writers/git.go:219-223`).

## Model

| member | source | states |
|---|---|---|
| `Construction.NewGitWriter` | lib/writers/git.go:38-104 | Construction succeeds exactly when every key the auth method needs is in the secret and, for SSH, key parsing and known-hosts setup succeed. Whenever a required key is missing, the failure is a missing-credential error, ahead of any SSH setup fault. It names the first missing key, checked in source order, with the destination namespace and secret name. SSH auth carries user "git", the key and the known hosts. Basic auth carries the username and password. Any other method gives no auth and no error. The author is fixed. The base path is the `Join` of the four path parts: empty only when all four are empty, clean otherwise. |
| `Construction.FirstMissing` | lib/writers/git.go:42-50 | The key checks stop at the first required key that is absent. Every earlier key is present, and "none missing" means all are present. |
| `Paths.CleanIdempotent` | lib/writers/git.go:143-147 | Cleaning a path that is already clean changes nothing. |
| `Paths.Clean` | lib/writers/git.go:143-147 | A cleaned path is never empty and is rooted exactly when the input is. It resolves to the same names as the input, so it names what the input names. It is the rendering of a resolved name stack: no "." or empty name is left, and a `..` remains only at the start of a relative path. |
| `Paths.ParentCancels` | lib/writers/git.go:141-147 | For every non-empty path `a` and normal name `n`, "a/n/.." cleans to the same path as "a": a `..` cancels the name before it, as in "/tmp/foo/.." becoming "/tmp". |
| `Paths.DotVanishes` | lib/writers/git.go:141-147 | For every non-empty path `a`, "a/." cleans to the same path as "a". |
| `Paths.TrailingSlashVanishes` | lib/writers/git.go:141-147 | For every non-empty path `a`, "a/" cleans to the same path as "a". |
| `Paths.Join` | lib/writers/git.go:135-141 | `filepath.Join` gives "" exactly when every element is empty. |
| `Paths.JoinRootedness` | lib/writers/git.go:135-141 | A non-empty joined path is rooted exactly when the first non-empty element is: the elements before it are all empty. |
| `Paths.JoinIsClean` | lib/writers/git.go:135-141 | Every non-empty result of `filepath.Join` is already clean. This is what makes the joined worktree and absolute paths canonical keys. |
| `Paths.SplitJoinRoundTrip` | lib/writers/git.go:135-141 | Splitting a path at "/" and joining the names back gives the path again, and no name contains "/". |
| `Paths.ParentFreeJoinKeepsRoot` | lib/writers/git.go:143-148 | Join a path with no `..` name onto a clean absolute root. The result keeps the root as a character prefix, so the guard never rejects such a path. |
| `Worktree.KeyIsCleanBelowRoot` | lib/writers/git.go:219-223 | A path's key is its cleaned form read below the clone root. A relative path's key is its cleaning. A rooted path's key is its cleaning without the leading "/", and the root itself is ".". |
| `Worktree.KeyIgnoresLeadingSlash` | lib/writers/git.go:219-223 | A path that stays inside the worktree names the same file with or without a leading "/". |
| `Worktree.LeadingSlashAlike` | lib/writers/git.go:180-182 | `Lstat` finds "/p" exactly when it finds "p", and removing either removes the same files. |
| `Worktree.Exists` | lib/writers/git.go:180 | `Lstat` finds every stored file at its key, and never finds a path that climbs out of the clone. The clone's root is always found. Any other path that is found reaches some stored file. |
| `Worktree.RemoveTree` | lib/writers/git.go:180-182 | Removing a path deletes the file it names, or every file under the directory it names, and nothing else. Afterwards nothing below the root is found there, and removing the root empties the tree. Removing a path that does not exist leaves the tree unchanged. |
| `Reconcile.RemoveListed` | lib/writers/git.go:187-202 | Selective delete. Each listed file, joined onto the directory, is removed if it exists and skipped if absent. The loop succeeds exactly when no listed path still exists at its turn with a failing removal. A success gives exactly the old tree minus what the listed paths cover. The first such blocked path is the error, and every error names a listed path that exists and whose removal fails. |
| `Reconcile.DeleteExistingFiles` | lib/writers/git.go:176-205 | With `removeDirectory` set, the whole directory's subtree goes. The call fails exactly when the directory exists and its removal fails, and the error names the directory. An absent directory is skipped without error. Without it, only listed paths go: it fails exactly when a listed path is blocked, on the first such path, and it succeeds whenever no listed path's removal fails. Success gives the reference pruned tree. A failure names a path that exists and whose removal failed. |
| `Reconcile.CreateWorkloads` | lib/writers/git.go:133-167 | The loop stages every workload exactly when all of them pass the prefix guard and can be written. The result is the pruned tree overwritten by the workloads, last one winning. Otherwise it names the first workload that escapes the root, with its absolute path, or the first that cannot be written. Every workload before that one passed. |
| `Reconcile.Action` | lib/writers/git.go:169-172 | The action is "Delete" exactly when there is nothing to create, and "Update" otherwise. |
| `Reconcile.CommitMessage` | lib/writers/git.go:285 | The message is the action, then " from: ", then the work placement name. Both parts can be read back from the message. |
| `Reconcile.CommitAndPush` | lib/writers/git.go:273-304 | A failing status call gives the status error. A clean status (staged tree equals the checked-out tree) gives nil with no commit. When the tree changed, a failing commit gives the commit error, and otherwise a failing push gives the push error. A push happens exactly when the tree changed and status, commit and push all succeed. A pushed commit carries the writer's author, the computed message and the staged tree. |
| `Reconcile.DirInRepo` | lib/writers/git.go:116 | The working directory is the base path joined with the sub-directory. It is empty only when both are, and it is otherwise clean. With no sub-directory it is the cleaned base path. |
| `Reconcile.Update` | lib/writers/git.go:111-174 | Returns `NothingToDo` (no clone) exactly when there is nothing to create, nothing to delete and no sub-directory. Otherwise a clone failure is the error. A failing removal of an existing directory, or the first blocked listed path, is the error. When no removal that is attempted fails, the first workload that fails the guard gives `PathRejected` with its absolute path, and the first that cannot be staged gives `WriteFailed` with its worktree path. Once everything is staged, a status failure is the error. A clean status gives `NoChanges`, which means the wanted tree equals the checkout. A changed tree gives the commit error, else the push error, else `Pushed` with the writer's author, the computed message and the wanted tree. Pushed or clean implies every workload passed the guard. |
| `Reader.ReadFile` | lib/writers/git.go:207-224 | Clone failure propagates. `FileNotFound` happens exactly when nothing exists at the path, read below the clone root. A success happens exactly when the path stays inside the clone and a file is stored at its key, and it returns that file's bytes. |
| `Reader.LeadingSlashReadsAlike` | lib/writers/git.go:219-223 | Reading "/p" gives the same result as reading "p" for any path that stays inside the clone. |
| `Properties.RootReadsAsDirectory` | lib/writers/git.go:219-223 | Reading a path that names the clone's root passes the existence check even on an empty branch, and then fails as a directory read, not as `FileNotFound`. |
| `Properties.EmptyPathIsRoot` | lib/writers/git.go:219 | The empty path stays inside the clone and names its root. |
| `Properties.RootRemovalFailureSurfaces` | lib/writers/git.go:179-185 | When the working directory is the clone's root, replacing it always tries the removal, even on an empty branch. A failing removal is then the error. |
| `Desired.Writes` | lib/writers/git.go:133-163 | The written files are exactly the keys of the workloads' joined paths. For each key, the content is that of the last workload targeting it. |
| `Desired.Admitted` | lib/writers/git.go:141-148 | The guard passes exactly when the temporary root is a prefix of the absolute path, the worktree path joined onto that root. |
| `Properties.DesiredTreeIdempotent` | lib/writers/git.go:128-167 | Applying the same deletions and then the same creations to their own result changes nothing. |
| `Properties.ReapplyIsClean` | lib/writers/git.go:274-283 | Re-run a published update against the branch it produced, from the same root with working collaborators. The status is clean, so nothing is committed or pushed. |
| `Properties.ReapplyNeverPublishes` | lib/writers/git.go:280-283 | Re-run a published update against the branch it produced, with any backend and any temporary root. It never commits or pushes. |
| `Properties.ChangedFilesPassGuard` | lib/writers/git.go:141-151 | Every file a published update added or changed is the key of some workload whose absolute path, joined onto the temporary root, starts with that root as a string. |
| `Properties.EscapingWorkloadNeverPublishes` | lib/writers/git.go:148-151 | If any workload fails the guard, the call commits nothing. It ends either with the nil result `PathRejected` or with an earlier error. |
| `Properties.ParentFreeTargetAdmitted` | lib/writers/git.go:143-148 | With a clean absolute temporary root, a workload whose worktree path has no `..` name always passes the guard. |
| `Properties.PrefixGuardAdmitsSibling` | lib/writers/git.go:148 | The guard is a string test. From root "/r", the path "../rx" resolves to "/rx". That path passes the guard but is not under "/r/". |
| `Properties.ClimbingPathRejected` | lib/writers/git.go:141-151 | From root "/r", the path "../../x" resolves to "/x", which fails the guard. |
| `Properties.SiblingEscapeFailsToStage` | lib/writers/git.go:141-166 | From root "/r" with an empty base path, the workload "../rx" passes the guard. Its worktree path climbs out of the clone, so staging it fails and the call returns `WriteFailed("../rx")` instead of publishing. |
| `Properties.ReplaceModeIgnoresDeleteList` | lib/writers/git.go:128 | With a non-empty sub-directory, the result does not depend on the list of files to delete. |
| `Properties.ReplaceClearsDirectory` | lib/writers/git.go:179-186 | Directory-replace. After a published update, no file that no workload wrote survives under the directory. Files outside it that no workload wrote are unchanged. |
| `Properties.SelectiveDeleteSparesOthers` | lib/writers/git.go:187-202 | Selective delete. After a published update, a file no workload wrote is gone exactly when a listed path covers it. Otherwise it keeps its content. |
| `Properties.AbsentDeletesAreSkipped` | lib/writers/git.go:193-196 | Suppose the delete list is non-empty, every listed path is absent, and there is nothing to create. If status works, the call finds nothing to commit and returns nil, even when those paths could not have been removed. |
| `Properties.AbsentDirectoryIsSkipped` | lib/writers/git.go:179-186 | With a sub-directory that does not exist, its removal is never tried. If every workload is staged and the collaborators work, the update gives `NoChanges` or pushes the wanted tree, whatever the directory's removal would have done. |
| `Properties.DeletedThenWrittenKeepsNewContent` | lib/writers/git.go:128-167 | Deletions come before creations. A key that is both deleted and written ends up holding its last workload's content. |
| `Properties.ReadBackAfterPublish` | lib/writers/git.go:207-224 | After a published update, reading a workload's worktree path from a checkout of the pushed branch returns the last content written to that key. |

## Left out

- SSH key parsing (`ssh.NewPublicKeys`) and the known-hosts callback built through a temporary file are foreign crypto and file I/O. They are modelled only as an optional `SshSetupFault` that fails construction.
- Creating the temporary directory with `os.MkdirTemp`, `MkdirAll`/`WriteFile` permissions, and the shallow single-branch clone are OS and go-git I/O. They are modelled as the backend's checkout, present or `None`.
- The deferred `os.RemoveAll(filepath.Dir(localTmpDir))` in `update` and `ReadFile` is left out. It removes the directory that holds the temporary root, not the clone alone; with `MkdirTemp("", …)` that is the system temporary directory. It runs after the result is decided and changes no result.
- A file/directory clash when writing (a file where a parent directory must go, or a directory at the file's path) is not computed from the tree. It is folded into the backend's set of paths that cannot be written.
- Worktree status is modelled as "staged tree equals checked-out tree". The clone is fresh, so HEAD is the checkout. File modes and the index are not modelled.
- How go-git's worktree filesystem reads a path is assumed, not derived from the writer: it is taken to be rooted at the clone, so a leading "/" is read below the clone's root. Its rules for climbing paths are reduced to one test: a path whose cleaned form starts with `..` is outside the clone. A rooted path such as "/../x" is cleaned to "/x" and read as staying inside. A filesystem bound to the host root would read "/a" as a host path instead.
- Reader.ReadFile: the `.git` metadata directory of the non-bare clone is not part of the tree, so reading a path under `.git` gives `FileNotFound` in the model.
- Reconcile.DeleteExistingFiles: the `.git` metadata directory is not part of the tree, so a listed path under `.git` is treated as absent and the model never removes anything there.
- Staging is assumed to fail for a path that climbs out of the clone and for the clone root itself. The file that `os.WriteFile` leaves outside the clone before staging fails is not modelled.
- Construction.NewGitWriter: the spellings of the auth-method constants belong to the API package, which is not part of this model. `OtherAuthMethod(name)` stands for any value that is neither of them, so a name that happens to spell "ssh" is still treated as some other method.
- Commit timestamps (`time.Now()`), the hard-coded `InsecureSkipTLS`, and logr logging are left out. They are non-deterministic or have no effect on results.
- The counterfeiter test double in `lib/writers/writersfakes/fake_state_store_writer.go` is mutex-guarded call recording. It has no behaviour of its own.
- Concurrent calls against the same branch, and non-fast-forward push races, are left out. They are reduced to "the push fails".

=== FILE: construction.dfy ===
/** `NewGitWriter`: credential validation for the chosen authentication
    method and composition of the destination's base path. */
module Construction {
  import opened Results
  import opened Paths
  import opened Worktree
  import opened Types

  /** The state store's authentication method after the switch on it:
      `SSHAuthMethod` and `BasicAuthMethod` stand for the two method constants
      the switch names, and `OtherAuthMethod(name)` carries any other value.
      The constants' spellings live in the API package, which is not part of
      this model, so `name` is taken to be neither of them. */
  datatype AuthMethodKind = SSHAuthMethod | BasicAuthMethod | OtherAuthMethod(name: string)

  datatype StateStoreSpec = StateStoreSpec(
    url: string, branch: string, path: string, authMethod: AuthMethodKind, secretName: string)

  datatype Destination = Destination(namespace: string, name: string, specPath: string)

  /** The secret's data: key name to raw bytes. */
  type Credentials = map<string, Bytes>

  /** Failures of the SSH key parser and of the known-hosts verifier built
      through a temporary file. */
  datatype SshSetupFault = KeyParseFailed | TempFileFailed | KnownHostsParseFailed | TempFileRemoveFailed

  datatype ConstructionError =
    | MissingCredential(key: string, namespace: string, secretName: string)
    | SshSetupFailed(fault: SshSetupFault)

  const BotAuthor := Author("Kratix", "kratix@syntasso.io")

  /** The secret keys each authentication method needs, in the order they are checked. */
  function RequiredKeys(kind: AuthMethodKind): seq<string>
  {
    match kind
    case SSHAuthMethod => ["sshPrivateKey", "knownHosts"]
    case BasicAuthMethod => ["username", "password"]
    case OtherAuthMethod(_) => []
  }

  /** Position of the first required key the secret lacks. */
  function FirstMissing(keys: seq<string>, creds: Credentials): (r: Option<nat>)
    ensures r.None? <==> forall i :: 0 <= i < |keys| ==> keys[i] in creds
    ensures r.Some? ==> r.value < |keys| && keys[r.value] !in creds
    ensures r.Some? ==> forall j :: 0 <= j < r.value ==> keys[j] in creds
  {
    if |keys| == 0 then None
    else if keys[0] !in creds then Some(0)
    else match FirstMissing(keys[1..], creds)
      case None => None
      case Some(i) => Some(i + 1)
  }

  function NewGitWriter(spec: StateStoreSpec, dest: Destination, creds: Credentials, sshFault: Option<SshSetupFault>)
    : (r: Result<GitWriter, ConstructionError>)
    ensures r.Ok? <==>
      (forall i :: 0 <= i < |RequiredKeys(spec.authMethod)| ==> RequiredKeys(spec.authMethod)[i] in creds)
      && (spec.authMethod == SSHAuthMethod ==> sshFault.None?)
    ensures r.Err? && r.error.MissingCredential? ==>
      exists i :: 0 <= i < |RequiredKeys(spec.authMethod)|
        && r.error.key == RequiredKeys(spec.authMethod)[i] && r.error.key !in creds
        && (forall j :: 0 <= j < i ==> RequiredKeys(spec.authMethod)[j] in creds)
    ensures r.Err? && r.error.MissingCredential? ==>
      r.error.namespace == dest.namespace && r.error.secretName == spec.secretName
    ensures (exists i :: 0 <= i < |RequiredKeys(spec.authMethod)| && RequiredKeys(spec.authMethod)[i] !in creds) ==>
      r.Err? && r.error.MissingCredential?
    ensures r.Err? && r.error.SshSetupFailed? ==>
      spec.authMethod == SSHAuthMethod && sshFault == Some(r.error.fault)
    ensures r.Ok? ==> r.value.server.url == spec.url && r.value.server.branch == spec.branch
    ensures r.Ok? ==> r.value.author == BotAuthor
    ensures r.Ok? && spec.authMethod == SSHAuthMethod ==>
      "sshPrivateKey" in creds && "knownHosts" in creds
      && r.value.server.auth == SshKeys("git", creds["sshPrivateKey"], creds["knownHosts"])
    ensures r.Ok? && spec.authMethod == BasicAuthMethod ==>
      "username" in creds && "password" in creds
      && r.value.server.auth == BasicAuth(creds["username"], creds["password"])
    ensures r.Ok? && spec.authMethod.OtherAuthMethod? ==> r.value.server.auth == NoAuth
    ensures r.Ok? ==> r.value.path == Join([spec.path, dest.specPath, dest.namespace, dest.name])
    ensures r.Ok? ==> (r.value.path == "" <==> spec.path == "" && dest.specPath == "" && dest.namespace == "" && dest.name == "")
    ensures r.Ok? && r.value.path != "" ==> Clean(r.value.path) == r.value.path
  {
    var keys := RequiredKeys(spec.authMethod);
    match FirstMissing(keys, creds)
    case Some(i) => Err(MissingCredential(keys[i], dest.namespace, spec.secretName))
    case None =>
      if spec.authMethod == SSHAuthMethod && sshFault.Some? then Err(SshSetupFailed(sshFault.value))
      else
        assert forall i :: 0 <= i < |keys| ==> keys[i] in creds;
        var auth :=
          match spec.authMethod
          case SSHAuthMethod =>
            assert keys[0] in creds && keys[1] in creds;
            SshKeys("git", creds["sshPrivateKey"], creds["knownHosts"])
          case BasicAuthMethod =>
            assert keys[0] in creds && keys[1] in creds;
            BasicAuth(creds["username"], creds["password"])
          case OtherAuthMethod(_) => NoAuth;
        var elems := [spec.path, dest.specPath, dest.namespace, dest.name];
        var path := Join(elems);
        assert elems[0] == spec.path && elems[1] == dest.specPath && elems[2] == dest.namespace && elems[3] == dest.name;
        if path != "" then
          JoinIsClean(elems);
          Ok(GitWriter(GitServer(spec.url, spec.branch, auth), BotAuthor, path))
        else
          Ok(GitWriter(GitServer(spec.url, spec.branch, auth), BotAuthor, path))
  }
}

=== FILE: desired.dfy ===
/** Reference definitions of what one update should leave in the worktree,
    stated key by key rather than as the sequence of calls the writer makes. */
module Desired {
  import opened Paths
  import opened Worktree
  import opened Types

  /** The path a workload is written to and staged under: its file path
      joined onto the target directory. */
  function Target(dir: string, w: Workload): string
  {
    Join2(dir, w.filepath)
  }

  /** The worktree key the workload's file lands on. */
  function Place(dir: string, w: Workload): string
  {
    Key(Target(dir, w))
  }

  /** Writing and staging a file at the path `p` succeeds: `p` stays inside
      the worktree, is not the worktree root, and the collaborators do not
      fail on it. */
  predicate Writable(p: string, broken: set<string>)
  {
    Inside(p) && Key(p) != "." && Key(p) !in broken
  }

  /** The containment guard: the absolute path of a worktree path, joined onto
      the temporary root, has that root as a string prefix. */
  predicate Admitted(root: string, worktreePath: string)
    ensures Admitted(root, worktreePath) <==> root <= Join2(root, worktreePath)
  {
    HasPrefix(Join2(root, worktreePath), root)
  }

  /** Some listed file, joined onto `dir`, names `k` or a directory holding `k`. */
  predicate Listed(dir: string, toDelete: seq<string>, k: string)
  {
    exists f :: f in toDelete && Reaches(Join2(dir, f), k)
  }

  /** Whether the delete phase removes `k`: the whole of `dir` when the
      directory is replaced, otherwise only what the listed files cover. */
  predicate Doomed(replaceDir: bool, dir: string, toDelete: seq<string>, k: string)
  {
    if replaceDir then Reaches(dir, k) else Listed(dir, toDelete, k)
  }

  function Prune(t: Tree, replaceDir: bool, dir: string, toDelete: seq<string>): Tree
  {
    map k | k in t && !Doomed(replaceDir, dir, toDelete, k) :: t[k]
  }

  /** The files the create phase writes; a later workload for the same key wins. */
  function Writes(dir: string, creates: seq<Workload>): (m: Tree)
    ensures forall k :: k in m <==> exists i :: 0 <= i < |creates| && Place(dir, creates[i]) == k
    ensures forall i :: 0 <= i < |creates| && LastFor(dir, creates, i) ==>
      Place(dir, creates[i]) in m && m[Place(dir, creates[i])] == creates[i].content
  {
    if |creates| == 0 then map[]
    else
      var rest := Writes(dir, creates[1..]);
      var m := map[Place(dir, creates[0]) := creates[0].content] + rest;
      WritesStep(dir, creates, rest, m);
      m
  }

  lemma WritesStep(dir: string, creates: seq<Workload>, rest: Tree, m: Tree)
    requires |creates| > 0
    requires forall k :: k in rest <==> exists i :: 0 <= i < |creates[1..]| && Place(dir, creates[1..][i]) == k
    requires forall i :: 0 <= i < |creates[1..]| && LastFor(dir, creates[1..], i) ==>
      Place(dir, creates[1..][i]) in rest && rest[Place(dir, creates[1..][i])] == creates[1..][i].content
    requires m == map[Place(dir, creates[0]) := creates[0].content] + rest
    ensures forall k :: k in m <==> exists i :: 0 <= i < |creates| && Place(dir, creates[i]) == k
    ensures forall i :: 0 <= i < |creates| && LastFor(dir, creates, i) ==>
      Place(dir, creates[i]) in m && m[Place(dir, creates[i])] == creates[i].content
  {
    WritesKeysStep(dir, creates, rest, m);
    WritesLastStep(dir, creates, rest, m);
  }

  lemma WritesKeysStep(dir: string, creates: seq<Workload>, rest: Tree, m: Tree)
    requires |creates| > 0
    requires forall k :: k in rest <==> exists i :: 0 <= i < |creates[1..]| && Place(dir, creates[1..][i]) == k
    requires m == map[Place(dir, creates[0]) := creates[0].content] + rest
    ensures forall k :: k in m <==> exists i :: 0 <= i < |creates| && Place(dir, creates[i]) == k
  {
    forall k | k in m ensures exists i :: 0 <= i < |creates| && Place(dir, creates[i]) == k {
      if k != Place(dir, creates[0]) {
        var i :| 0 <= i < |creates[1..]| && Place(dir, creates[1..][i]) == k;
        assert Place(dir, creates[i + 1]) == k;
      }
    }
    forall k | exists i :: 0 <= i < |creates| && Place(dir, creates[i]) == k ensures k in m {
      var i :| 0 <= i < |creates| && Place(dir, creates[i]) == k;
      if i > 0 { assert Place(dir, creates[1..][i - 1]) == k; }
    }
  }

  lemma WritesLastStep(dir: string, creates: seq<Workload>, rest: Tree, m: Tree)
    requires |creates| > 0
    requires forall i :: 0 <= i < |creates[1..]| && LastFor(dir, creates[1..], i) ==>
      Place(dir, creates[1..][i]) in rest && rest[Place(dir, creates[1..][i])] == creates[1..][i].content
    requires forall k :: k in rest ==> exists i :: 0 <= i < |creates[1..]| && Place(dir, creates[1..][i]) == k
    requires m == map[Place(dir, creates[0]) := creates[0].content] + rest
    ensures forall i :: 0 <= i < |creates| && LastFor(dir, creates, i) ==>
      Place(dir, creates[i]) in m && m[Place(dir, creates[i])] == creates[i].content
  {
    forall i | 0 <= i < |creates| && LastFor(dir, creates, i)
      ensures Place(dir, creates[i]) in m && m[Place(dir, creates[i])] == creates[i].content
    {
      if i > 0 {
        assert LastFor(dir, creates[1..], i - 1);
      } else {
        forall j | 0 <= j < |creates[1..]| ensures Place(dir, creates[1..][j]) != Place(dir, creates[0]) {
          assert creates[1..][j] == creates[j + 1];
        }
        assert Place(dir, creates[0]) !in rest;
      }
    }
  }

  /** No later workload lands on the same key as workload `i`. */
  predicate LastFor(dir: string, creates: seq<Workload>, i: int)
    requires 0 <= i < |creates|
  {
    forall j :: i < j < |creates| ==> Place(dir, creates[j]) != Place(dir, creates[i])
  }

  /** The worktree after all deletions and then all creations. */
  function DesiredTree(t: Tree, replaceDir: bool, dir: string, toDelete: seq<string>, creates: seq<Workload>): Tree
  {
    Prune(t, replaceDir, dir, toDelete) + Writes(dir, creates)
  }
}

=== FILE: paths.dfy ===
/** Lexical path handling as Go's `path/filepath` does it on a Unix host
    (separator '/'), and the `strings.HasPrefix` test used by the writer.

    A path is split into the names between separators; `Clean` walks those
    names left to right keeping a stack of resolved names, dropping empty and
    "." names and letting ".." cancel the name before it. */
module Paths {

  predicate NoSlash(s: string)
  {
    '/' !in s
  }

  /** Index of the first '/' in `p`, or `|p|` when there is none. */
  function FirstSlash(p: string): (i: nat)
    ensures i <= |p|
    ensures i < |p| ==> p[i] == '/'
    ensures NoSlash(p[..i])
  {
    if |p| == 0 || p[0] == '/' then 0 else 1 + FirstSlash(p[1..])
  }

  /** `strings.Join(segs, "/")`. */
  function JoinWith(segs: seq<string>): string
  {
    if |segs| == 0 then ""
    else if |segs| == 1 then segs[0]
    else segs[0] + "/" + JoinWith(segs[1..])
  }

  lemma {:induction false} JoinWithStartsWithFirst(segs: seq<string>)
    requires |segs| >= 1
    ensures segs[0] <= JoinWith(segs)
  {
  }

  /** `strings.Split(p, "/")`: the names between separators, never an empty list. */
  function Split(p: string): (segs: seq<string>)
    ensures |segs| >= 1
    decreases |p|
  {
    var i := FirstSlash(p);
    if i == |p| then [p] else [p[..i]] + Split(p[i + 1..])
  }

  /** The names `Split` yields hold no separator, and joining them back with
      "/" gives the path again. */
  lemma SplitJoinRoundTrip(p: string)
    ensures forall i :: 0 <= i < |Split(p)| ==> NoSlash(Split(p)[i])
    ensures JoinWith(Split(p)) == p
  {
    SplitNamesHaveNoSlash(p);
    SplitJoinsBack(p);
  }

  lemma {:induction false} SplitNamesHaveNoSlash(p: string)
    ensures forall i :: 0 <= i < |Split(p)| ==> NoSlash(Split(p)[i])
    decreases |p|
  {
    var i := FirstSlash(p);
    if i < |p| {
      var s := Split(p[i + 1..]);
      SplitNamesHaveNoSlash(p[i + 1..]);
      assert Split(p) == [p[..i]] + s;
      forall j | 0 <= j < |Split(p)| ensures NoSlash(Split(p)[j]) {
        if j > 0 { assert Split(p)[j] == s[j - 1]; }
      }
    }
  }

  lemma {:induction false} SplitJoinsBack(p: string)
    ensures JoinWith(Split(p)) == p
    decreases |p|
  {
    var i := FirstSlash(p);
    if i < |p| {
      var s := Split(p[i + 1..]);
      SplitJoinsBack(p[i + 1..]);
      assert Split(p) == [p[..i]] + s;
      JoinWithCons(p[..i], s);
      assert p == p[..i] + "/" + p[i + 1..];
    }
  }

  lemma JoinWithCons(x: string, s: seq<string>)
    requires |s| >= 1
    ensures JoinWith([x] + s) == x + "/" + JoinWith(s)
  {
    assert ([x] + s)[1..] == s;
  }

  /** A name that survives cleaning unchanged. */
  predicate Normal(s: string)
  {
    s != "" && s != "." && s != ".." && '/' !in s
  }

  /** A stack of resolved names: normal names, preceded by a run of ".."
      names only when the path is relative. */
  predicate Resolved(stack: seq<string>, rooted: bool)
  {
    forall i :: 0 <= i < |stack| ==>
      Normal(stack[i]) || (!rooted && stack[i] == ".." && forall j :: 0 <= j < i ==> stack[j] == "..")
  }

  /** One name of the walk done by `filepath.Clean`. */
  function Step(stack: seq<string>, name: string, rooted: bool): seq<string>
  {
    if name == "" || name == "." then stack
    else if name == ".." then
      if |stack| > 0 && stack[|stack| - 1] != ".." then stack[..|stack| - 1]
      else if rooted then stack
      else stack + [".."]
    else stack + [name]
  }

  function ResolveFrom(stack: seq<string>, names: seq<string>, rooted: bool): seq<string>
    decreases |names|
  {
    if |names| == 0 then stack
    else ResolveFrom(Step(stack, names[0], rooted), names[1..], rooted)
  }

  /** Writes a resolved stack back as a path; the empty relative path is ".". */
  function Render(rooted: bool, stack: seq<string>): string
  {
    if rooted then "/" + JoinWith(stack)
    else if |stack| == 0 then "."
    else JoinWith(stack)
  }

  predicate Rooted(p: string)
  {
    |p| > 0 && p[0] == '/'
  }

  /** The names of `p` that survive cleaning, in order. */
  function Names(p: string): seq<string>
  {
    ResolveFrom([], Split(p), Rooted(p))
  }

  /** `filepath.Clean`: the shortest lexically equivalent path. Its names are
      resolved: no "." or empty name is left, and a ".." remains only at the
      start of a relative path. */
  function Clean(p: string): (r: string)
    ensures r != ""
    ensures Rooted(r) == Rooted(p)
    ensures exists stack :: Resolved(stack, Rooted(p)) && r == Render(Rooted(p), stack)
    ensures Names(r) == Names(p)
  {
    var rooted := Rooted(p);
    var stack := Names(p);
    SplitJoinRoundTrip(p);
    ResolvedStack([], Split(p), rooted);
    ResolveRendered(rooted, stack);
    if |stack| > 0 then JoinWithStartsWithFirst(stack); Render(rooted, stack)
    else Render(rooted, stack)
  }

  /** `filepath.Join`: the elements from the first non-empty one on, joined
      with "/" and cleaned; "" when every element is empty. */
  function Join(elems: seq<string>): (r: string)
    ensures r == "" <==> forall i :: 0 <= i < |elems| ==> elems[i] == ""
  {
    if |elems| == 0 then ""
    else if elems[0] != "" then Clean(JoinWith(elems))
    else Join(elems[1..])
  }

  /** A joined path is rooted exactly when its first non-empty element is. */
  lemma {:induction false} JoinRootedness(elems: seq<string>)
    requires Join(elems) != ""
    ensures exists i :: (0 <= i < |elems| && elems[i] != "" && Rooted(Join(elems)) == Rooted(elems[i])
      && forall j :: 0 <= j < i ==> elems[j] == "")
    decreases |elems|
  {
    if elems[0] != "" {
      JoinWithStartsWithFirst(elems);
      assert Rooted(JoinWith(elems)) == Rooted(elems[0]);
    } else {
      JoinRootedness(elems[1..]);
      var i :| 0 <= i < |elems[1..]| && elems[1..][i] != "" && Rooted(Join(elems[1..])) == Rooted(elems[1..][i])
        && forall j :: 0 <= j < i ==> elems[1..][j] == "";
      forall j | 0 <= j < i + 1 ensures elems[j] == "" {
        if j > 0 { assert elems[j] == elems[1..][j - 1]; }
      }
      assert elems[i + 1] == elems[1..][i];
    }
  }

  function Join2(a: string, b: string): string
  {
    Join([a, b])
  }

  /** `strings.HasPrefix`: a plain character-by-character test. */
  predicate HasPrefix(s: string, prefix: string)
  {
    |prefix| <= |s| && s[..|prefix|] == prefix
  }

  // ---------------------------------------------------------------------
  // Splitting and joining

  lemma {:induction false} JoinWithAppend(a: seq<string>, b: seq<string>)
    requires |a| >= 1 && |b| >= 1
    ensures JoinWith(a + b) == JoinWith(a) + "/" + JoinWith(b)
    decreases |a|
  {
    if |a| == 1 {
      assert (a + b)[1..] == b;
    } else {
      assert (a + b)[1..] == a[1..] + b;
      JoinWithAppend(a[1..], b);
    }
  }

  /** Splitting at a separator splits the two sides independently. */
  lemma {:induction false} SplitAppend(a: string, b: string)
    ensures Split(a + "/" + b) == Split(a) + Split(b)
    decreases |a|, 1
  {
    FirstSlashAppend(a, b);
    if FirstSlash(a) == |a| {
      SplitAppendAtEnd(a, b);
    } else {
      SplitAppendInside(a, b);
    }
  }

  /** `a` holds no separator: the added one is the first. */
  lemma SplitAppendAtEnd(a: string, b: string)
    requires FirstSlash(a) == |a|
    requires FirstSlash(a + "/" + b) == |a|
    ensures Split(a + "/" + b) == Split(a) + Split(b)
  {
    var p := a + "/" + b;
    assert p[..|a|] == a;
    assert p[|a| + 1..] == b;
    assert Split(a) == [a];
  }

  /** `a` holds a separator: split there, and split the rest of `a` with `b`. */
  lemma {:induction false} SplitAppendInside(a: string, b: string)
    requires FirstSlash(a) < |a|
    requires FirstSlash(a + "/" + b) == FirstSlash(a)
    ensures Split(a + "/" + b) == Split(a) + Split(b)
    decreases |a|, 0
  {
    var i := FirstSlash(a);
    PrefixAfterSlash(a, b, i);
    SplitAppend(a[i + 1..], b);
    assert [a[..i]] + (Split(a[i + 1..]) + Split(b)) == [a[..i]] + Split(a[i + 1..]) + Split(b);
  }

  lemma PrefixAfterSlash(a: string, b: string, i: int)
    requires 0 <= i < |a|
    ensures (a + "/" + b)[..i] == a[..i]
    ensures (a + "/" + b)[i + 1..] == a[i + 1..] + "/" + b
  {
  }

  /** The first separator of "a/b" is the first one of `a`, or the one added. */
  lemma {:induction false} FirstSlashAppend(a: string, b: string)
    ensures FirstSlash(a + "/" + b) == FirstSlash(a)
    decreases |a|
  {
    var p := a + "/" + b;
    if |a| == 0 {
      assert p[0] == '/';
    } else if a[0] != '/' {
      assert p[0] == a[0];
      assert p[1..] == a[1..] + "/" + b;
      FirstSlashAppend(a[1..], b);
    } else {
      assert p[0] == '/';
    }
  }

  /** Joining names that hold no separator and splitting again gives the names back. */
  lemma {:induction false} SplitJoinWith(segs: seq<string>)
    requires |segs| >= 1
    requires forall i :: 0 <= i < |segs| ==> '/' !in segs[i]
    ensures Split(JoinWith(segs)) == segs
    decreases |segs|
  {
    var s := segs[0];
    assert forall j :: 0 <= j < |s| ==> s[j] != '/';
    assert FirstSlash(s) == |s|;
    if |segs| > 1 {
      SplitAppend(s, JoinWith(segs[1..]));
      SplitJoinWith(segs[1..]);
      assert [s] + segs[1..] == segs;
    }
  }

  // ---------------------------------------------------------------------
  // The resolving walk

  lemma {:induction false} ResolveFromAppend(stack: seq<string>, a: seq<string>, b: seq<string>, rooted: bool)
    ensures ResolveFrom(stack, a + b, rooted) == ResolveFrom(ResolveFrom(stack, a, rooted), b, rooted)
    decreases |a|
  {
    if |a| == 0 {
      assert a + b == b;
    } else {
      assert (a + b)[0] == a[0];
      assert (a + b)[1..] == a[1..] + b;
      ResolveFromAppend(Step(stack, a[0], rooted), a[1..], b, rooted);
    }
  }

  lemma StepResolved(stack: seq<string>, name: string, rooted: bool)
    requires Resolved(stack, rooted)
    requires '/' !in name
    ensures Resolved(Step(stack, name, rooted), rooted)
  {
    var r := Step(stack, name, rooted);
    if name == ".." && !(|stack| > 0 && stack[|stack| - 1] != "..") && !rooted {
      forall i | 0 <= i < |r|
        ensures Normal(r[i]) || (!rooted && r[i] == ".." && forall j :: 0 <= j < i ==> r[j] == "..")
      {
        if i == |stack| && |stack| > 0 {
          // the last entry is "..", so every entry before it is ".." too
          assert !Normal(stack[|stack| - 1]);
          assert forall j :: 0 <= j < i ==> r[j] == stack[j];
        }
      }
    }
  }

  /** Every walk from a resolved stack over names without separators ends in a resolved stack. */
  lemma {:induction false} ResolvedStack(stack: seq<string>, names: seq<string>, rooted: bool)
    requires Resolved(stack, rooted)
    requires forall i :: 0 <= i < |names| ==> NoSlash(names[i])
    ensures Resolved(ResolveFrom(stack, names, rooted), rooted)
    decreases |names|
  {
    if |names| > 0 {
      StepResolved(stack, names[0], rooted);
      ResolvedStack(Step(stack, names[0], rooted), names[1..], rooted);
    }
  }

  /** Walking over names that are already resolved after `stack` only pushes them. */
  lemma {:induction false} ResolveFromResolved(stack: seq<string>, names: seq<string>, rooted: bool)
    requires Resolved(stack + names, rooted)
    ensures ResolveFrom(stack, names, rooted) == stack + names
    decreases |names|
  {
    if |names| > 0 {
      var n := names[0];
      assert (stack + names)[|stack|] == n;
      if n == ".." {
        assert forall j :: 0 <= j < |stack| ==> (stack + names)[j] == stack[j];
        if |stack| > 0 { assert stack[|stack| - 1] == ".."; }
      }
      assert Step(stack, n, rooted) == stack + [n];
      assert stack + [n] + names[1..] == stack + names;
      ResolveFromResolved(stack + [n], names[1..], rooted);
    }
  }

  /** Without ".." names the walk never pops: the starting stack stays a prefix. */
  lemma {:induction false} ResolveFromKeepsPrefix(stack: seq<string>, names: seq<string>, rooted: bool)
    requires forall i :: 0 <= i < |names| ==> names[i] != ".."
    ensures stack <= ResolveFrom(stack, names, rooted)
    decreases |names|
  {
    if |names| > 0 {
      ResolveFromKeepsPrefix(Step(stack, names[0], rooted), names[1..], rooted);
    }
  }

  /** A relative walk whose stack starts with ".." keeps that "..". */
  lemma {:induction false} LeadingParentStays(stack: seq<string>, names: seq<string>)
    requires |stack| > 0 && stack[0] == ".."
    ensures |ResolveFrom(stack, names, false)| > 0 && ResolveFrom(stack, names, false)[0] == ".."
    decreases |names|
  {
    if |names| > 0 {
      LeadingParentStays(Step(stack, names[0], false), names[1..]);
    }
  }

  /** From a stack without "..", the rooted and the relative walk agree unless
      the relative one climbs above its start and so ends with a leading "..". */
  lemma {:induction false} RootedWalkAgrees(stack: seq<string>, names: seq<string>)
    requires forall i :: 0 <= i < |stack| ==> stack[i] != ".."
    ensures var u := ResolveFrom(stack, names, false);
      (|u| == 0 || u[0] != "..") ==> ResolveFrom(stack, names, true) == u
    decreases |names|
  {
    if |names| > 0 {
      var n := names[0];
      if n == ".." && |stack| == 0 {
        assert stack + [".."] == [".."];
        assert Step(stack, n, false) == [".."];
        LeadingParentStays([".."], names[1..]);
      } else {
        assert Step(stack, n, false) == Step(stack, n, true);
        RootedWalkAgrees(Step(stack, n, false), names[1..]);
      }
    }
  }

  // ---------------------------------------------------------------------
  // Properties of Clean and Join

  /** Cleaning a rendered resolved stack walks back to the same stack. */
  lemma ResolveRendered(rooted: bool, stack: seq<string>)
    requires Resolved(stack, rooted)
    ensures ResolveFrom([], Split(Render(rooted, stack)), rooted) == stack
  {
    assert forall i :: 0 <= i < |stack| ==> '/' !in stack[i];
    assert [] + stack == stack;
    if rooted {
      assert "/" + JoinWith(stack) == "" + "/" + JoinWith(stack);
      SplitAppend("", JoinWith(stack));
      assert Split("") == [""];
      if |stack| > 0 {
        SplitJoinWith(stack);
        ResolveFromResolved([], stack, rooted);
        assert Split(Render(rooted, stack)) == [""] + stack;
      } else {
        assert Split(Render(rooted, stack)) == ["", ""];
        assert ResolveFrom([], ["", ""], rooted) == ResolveFrom([], [""], rooted);
        assert ResolveFrom([], [""], rooted) == ResolveFrom([], [], rooted);
      }
    } else if |stack| > 0 {
      SplitJoinWith(stack);
      ResolveFromResolved([], stack, rooted);
    } else {
      assert FirstSlash(".") == 1;
      assert Split(".") == ["."];
      assert ResolveFrom([], ["."], rooted) == ResolveFrom([], [], rooted);
    }
  }

  /** Cleaning is idempotent: a cleaned path is its own cleaning. */
  lemma CleanIdempotent(p: string)
    ensures Clean(Clean(p)) == Clean(p)
  {
    var rooted := Rooted(p);
    var stack := ResolveFrom([], Split(p), rooted);
    SplitJoinRoundTrip(p);
    ResolvedStack([], Split(p), rooted);
    ResolveRendered(rooted, stack);
  }

  /** Appending "/" and more names to a non-empty path continues its walk. */
  lemma NamesAppend(a: string, b: string)
    requires |a| > 0
    ensures Rooted(a + "/" + b) == Rooted(a)
    ensures Names(a + "/" + b) == ResolveFrom(Names(a), Split(b), Rooted(a))
  {
    SplitAppend(a, b);
    ResolveFromAppend([], Split(a), Split(b), Rooted(a));
  }

  /** Two paths with the same rootedness and the same resolved names clean alike. */
  lemma SameNamesSameClean(p: string, q: string)
    requires Rooted(p) == Rooted(q) && Names(p) == Names(q)
    ensures Clean(p) == Clean(q)
  {
  }

  /** A trailing separator changes nothing: "a/" cleans as "a". */
  lemma TrailingSlashVanishes(a: string)
    requires |a| > 0
    ensures Clean(a + "/") == Clean(a)
  {
    assert a + "/" + "" == a + "/";
    NamesAppend(a, "");
    assert Split("") == [""];
    SameNamesSameClean(a + "/", a);
  }

  /** A "." name changes nothing: "a/." cleans as "a". */
  lemma DotVanishes(a: string)
    requires |a| > 0
    ensures Clean(a + "/.") == Clean(a)
  {
    assert a + "/" + "." == a + "/.";
    NamesAppend(a, ".");
    assert FirstSlash(".") == 1;
    assert Split(".") == ["."];
    SameNamesSameClean(a + "/.", a);
  }

  /** A ".." name cancels the normal name before it: "a/n/.." cleans as "a".
      This is how `filepath.Join` resolves "/tmp/foo/.." to "/tmp". */
  lemma ParentCancels(a: string, n: string)
    requires |a| > 0 && Normal(n)
    ensures Clean(a + "/" + n + "/..") == Clean(a)
  {
    var tail := n + "/" + "..";
    assert a + "/" + n + "/.." == a + "/" + tail;
    NamesAppend(a, tail);
    ParentTailSplits(n);
    PushThenPop(Names(a), n, Rooted(a));
    assert Names(a + "/" + tail) == Names(a);
    SameNamesSameClean(a + "/" + tail, a);
  }

  /** Walking a normal name and then ".." returns to the stack it started from. */
  lemma PushThenPop(stack: seq<string>, n: string, rooted: bool)
    requires Normal(n)
    ensures ResolveFrom(stack, [n, ".."], rooted) == stack
  {
    assert Step(stack, n, rooted) == stack + [n];
    assert Step(stack + [n], "..", rooted) == stack;
    assert [n, ".."][1..] == [".."];
    assert [".."][1..] == [];
  }

  lemma ParentTailSplits(n: string)
    requires Normal(n)
    ensures Split(n + "/" + "..") == [n, ".."]
  {
    assert JoinWith([n, ".."]) == n + "/" + "..";
    SplitJoinWith([n, ".."]);
  }

  /** Every non-empty result of `Join` is already clean. */
  lemma JoinIsClean(elems: seq<string>)
    requires Join(elems) != ""
    ensures Clean(Join(elems)) == Join(elems)
    decreases |elems|
  {
    if elems[0] != "" {
      CleanIdempotent(JoinWith(elems));
    } else {
      JoinIsClean(elems[1..]);
    }
  }

  lemma RenderRootedPrefix(base: seq<string>, full: seq<string>)
    requires base <= full
    ensures HasPrefix(Render(true, full), Render(true, base))
  {
    if |base| > 0 && |full| > |base| {
      var rest := full[|base|..];
      assert full == base + rest;
      JoinWithAppend(base, rest);
    } else if |full| == |base| {
      assert full == base;
    }
  }

  /** Joining onto a clean absolute root a path with no ".." name keeps the
      root as a character prefix of the result. */
  lemma {:induction false} ParentFreeJoinKeepsRoot(root: string, path: string)
    requires Rooted(root) && Clean(root) == root
    requires forall i :: 0 <= i < |Split(path)| ==> Split(path)[i] != ".."
    ensures HasPrefix(Join2(root, path), root)
  {
    var joined := root + "/" + path;
    assert JoinWith([root, path]) == joined;
    assert Rooted(joined);
    SplitAppend(root, path);
    var base := ResolveFrom([], Split(root), true);
    ResolveFromAppend([], Split(root), Split(path), true);
    var full := ResolveFrom(base, Split(path), true);
    ResolveFromKeepsPrefix(base, Split(path), true);
    assert Clean(joined) == Render(true, full);
    RenderRootedPrefix(base, full);
  }
}

=== FILE: properties.dfy ===
/** Properties that relate several calls, or a call to the reference
    definition of the tree it should produce. */
module Properties {
  import opened Results
  import opened Paths
  import opened Worktree
  import opened Types
  import opened Desired
  import opened Reconcile
  import opened Reader

  /** A call that committed and pushed. */
  predicate Published(r: Result<Effect, GitError>)
  {
    r.Ok? && r.value.Pushed?
  }

  // -----------------------------------------------------------------------
  // Idempotence

  /** Applying the same deletions and creations to their own result changes nothing. */
  lemma DesiredTreeIdempotent(t: Tree, replaceDir: bool, dir: string, toDelete: seq<string>, creates: seq<Workload>)
    ensures DesiredTree(DesiredTree(t, replaceDir, dir, toDelete, creates), replaceDir, dir, toDelete, creates)
         == DesiredTree(t, replaceDir, dir, toDelete, creates)
  {
    PruneThenOverwriteIdempotent(t, replaceDir, dir, toDelete, Writes(dir, creates));
  }

  /** Pruning and then overwriting with the same files is idempotent, whatever those files are. */
  lemma PruneThenOverwriteIdempotent(t: Tree, replaceDir: bool, dir: string, toDelete: seq<string>, written: Tree)
    ensures Prune(Prune(t, replaceDir, dir, toDelete) + written, replaceDir, dir, toDelete) + written
         == Prune(t, replaceDir, dir, toDelete) + written
  {
  }

  /** Re-running a published update against the branch it produced, from the
      same temporary root and with every collaborator working, finds a clean
      status: nothing is committed or pushed. */
  lemma ReapplyIsClean(w: GitWriter, first: Backend, second: Backend, subDir: string, workPlacementName: string,
                       creates: seq<Workload>, deletes: seq<string>)
    requires Published(Update(w, first, subDir, workPlacementName, creates, deletes))
    requires first.checkout.Some?
    requires second.checkout ==
      Some(Checkout(first.checkout.value.root, Update(w, first, subDir, workPlacementName, creates, deletes).value.tree))
    requires second.brokenPaths == {} && !second.statusFails
    ensures Update(w, second, subDir, workPlacementName, creates, deletes) == Ok(NoChanges)
  {
    var root := first.checkout.value.root;
    var dir := DirInRepo(w, subDir);
    DesiredTreeIdempotent(first.checkout.value.tree, subDir != "", dir, deletes, creates);
    assert WrittenBefore(root, dir, creates, first.brokenPaths, |creates|);
    forall j | 0 <= j < |creates|
      ensures Admitted(root, Target(dir, creates[j])) && Writable(Target(dir, creates[j]), {})
    {
    }
    assert ReachesCommit(w, second, subDir, creates, deletes);
  }

  /** Whatever the collaborators do and whatever temporary root is used,
      re-running a published update against the branch it produced never
      publishes again. */
  lemma ReapplyNeverPublishes(w: GitWriter, first: Backend, second: Backend, subDir: string, workPlacementName: string,
                              creates: seq<Workload>, deletes: seq<string>)
    requires Published(Update(w, first, subDir, workPlacementName, creates, deletes))
    requires first.checkout.Some?
    requires second.checkout.Some?
    requires second.checkout.value.tree == Update(w, first, subDir, workPlacementName, creates, deletes).value.tree
    ensures !Published(Update(w, second, subDir, workPlacementName, creates, deletes))
  {
    DesiredTreeIdempotent(first.checkout.value.tree, subDir != "", DirInRepo(w, subDir), deletes, creates);
  }

  // -----------------------------------------------------------------------
  // Containment

  /** Every file a published update added or changed is the key some
      workload landed on, and that workload passed the guard. */
  lemma ChangedFilesPassGuard(w: GitWriter, b: Backend, subDir: string, workPlacementName: string,
                              creates: seq<Workload>, deletes: seq<string>, k: string)
    requires Published(Update(w, b, subDir, workPlacementName, creates, deletes))
    requires b.checkout.Some?
    requires k in Update(w, b, subDir, workPlacementName, creates, deletes).value.tree
    requires k !in b.checkout.value.tree
          || Update(w, b, subDir, workPlacementName, creates, deletes).value.tree[k] != b.checkout.value.tree[k]
    ensures exists i :: (0 <= i < |creates| && Place(DirInRepo(w, subDir), creates[i]) == k
      && Admitted(b.checkout.value.root, Target(DirInRepo(w, subDir), creates[i])))
  {
    var dir := DirInRepo(w, subDir);
    assert k in Writes(dir, creates);
    var i :| 0 <= i < |creates| && Place(dir, creates[i]) == k;
    assert WrittenBefore(b.checkout.value.root, dir, creates, b.brokenPaths, |creates|);
  }

  /** A workload that fails the guard means the call commits nothing: it ends
      with the nil result `PathRejected` or with an earlier error. */
  lemma EscapingWorkloadNeverPublishes(w: GitWriter, b: Backend, subDir: string, workPlacementName: string,
                                       creates: seq<Workload>, deletes: seq<string>, i: int)
    requires b.checkout.Some?
    requires 0 <= i < |creates|
    requires !Admitted(b.checkout.value.root, Target(DirInRepo(w, subDir), creates[i]))
    ensures var r := Update(w, b, subDir, workPlacementName, creates, deletes);
      r.Err? || r.value.PathRejected?
  {
  }

  /** With a clean absolute temporary root, a workload whose worktree path has
      no ".." name always passes the guard. */
  lemma ParentFreeTargetAdmitted(root: string, dir: string, wl: Workload)
    requires Rooted(root) && Clean(root) == root
    requires forall j :: 0 <= j < |Split(Target(dir, wl))| ==> Split(Target(dir, wl))[j] != ".."
    ensures Admitted(root, Target(dir, wl))
  {
    ParentFreeJoinKeepsRoot(root, Target(dir, wl));
  }

  /** The guard is a string-prefix test, not a directory test: from the root
      "/r" the path "../rx" resolves to the sibling "/rx", which is outside
      "/r/" yet passes. */
  lemma PrefixGuardAdmitsSibling()
    ensures Admitted("/r", "../rx")
    ensures Join2("/r", "../rx") == "/rx"
    ensures !HasPrefix(Join2("/r", "../rx"), "/r/")
  {
    SiblingJoin();
    assert "/rx"[..2] == "/r";
    assert "/rx"[2] != "/r/"[2];
  }

  lemma SiblingJoin()
    ensures Join(["/r", "../rx"]) == "/rx"
  {
    assert JoinWith(["/r", "../rx"]) == "/r/../rx";
    SiblingClean();
  }

  lemma SiblingClean()
    ensures Clean("/r/../rx") == "/rx"
  {
    SiblingNames();
    SiblingStack();
  }

  lemma SiblingStack()
    ensures ResolveFrom([], ["", "r", "..", "rx"], true) == ["rx"]
  {
    var names := ["", "r", "..", "rx"];
    assert ResolveFrom([], names, true) == ResolveFrom([], names[1..], true);
    assert ResolveFrom([], names[1..], true) == ResolveFrom(["r"], names[2..], true);
    assert ResolveFrom(["r"], names[2..], true) == ResolveFrom([], names[3..], true);
    assert ResolveFrom([], names[3..], true) == ResolveFrom(["rx"], [], true);
  }

  lemma SiblingNames()
    ensures Split("/r/../rx") == ["", "r", "..", "rx"]
  {
    var names := ["", "r", "..", "rx"];
    assert JoinWith(names) == "/r/../rx";
    assert forall i :: 0 <= i < |names| ==> '/' !in names[i];
    SplitJoinWith(names);
  }

  /** The sibling path the guard admits climbs out of the worktree, so
      staging it fails and the update ends with an error instead of a commit. */
  lemma SiblingEscapeFailsToStage(w: GitWriter, b: Backend, workPlacementName: string, t: Tree, c: Bytes)
    requires w.path == ""
    requires b.checkout == Some(Checkout("/r", t))
    ensures Update(w, b, "", workPlacementName, [Workload("../rx", c)], []) == Err(WriteFailed("../rx"))
  {
    var creates := [Workload("../rx", c)];
    SiblingRelative();
    assert DirInRepo(w, "") == "";
    assert Target("", creates[0]) == "../rx";
    PrefixGuardAdmitsSibling();
    assert WrittenBefore("/r", "", creates, b.brokenPaths, 0);
  }

  lemma SiblingRelative()
    ensures Join2("", "../rx") == "../rx"
    ensures !Inside("../rx")
  {
    var names := ["..", "rx"];
    assert JoinWith(names) == "../rx";
    assert forall i :: 0 <= i < |names| ==> '/' !in names[i];
    SplitJoinWith(names);
    assert ResolveFrom([], names, false) == ResolveFrom([".."], names[1..], false);
    assert ResolveFrom([".."], names[1..], false) == ResolveFrom(["..", "rx"], [], false);
    assert Names("../rx") == names;
    assert Join(["", "../rx"]) == Join(["../rx"]);
    assert Join(["../rx"]) == Clean(JoinWith(["../rx"]));
  }

  /** A ".." path that climbs out of the root is caught: from "/r" the path
      "../../x" resolves to "/x", which fails the guard. */
  lemma ClimbingPathRejected()
    ensures Join2("/r", "../../x") == "/x"
    ensures !Admitted("/r", "../../x")
  {
    ClimbingJoin();
    assert "/x"[1] != "/r"[1];
  }

  lemma ClimbingJoin()
    ensures Join(["/r", "../../x"]) == "/x"
  {
    ClimbingJoinWith();
    ClimbingClean();
  }

  lemma ClimbingJoinWith()
    ensures JoinWith(["/r", "../../x"]) == "/r/../../x"
  {
    assert JoinWith(["../../x"]) == "../../x";
  }

  lemma ClimbingClean()
    ensures Clean("/r/../../x") == "/x"
  {
    ClimbingNames();
    ClimbingStack();
  }

  lemma ClimbingNames()
    ensures Split("/r/../../x") == ["", "r", "..", "..", "x"]
  {
    var names := ["", "r", "..", "..", "x"];
    assert JoinWith(names) == "/r/../../x";
    assert forall i :: 0 <= i < |names| ==> '/' !in names[i];
    SplitJoinWith(names);
  }

  lemma ClimbingStack()
    ensures ResolveFrom([], ["", "r", "..", "..", "x"], true) == ["x"]
  {
    var names := ["", "r", "..", "..", "x"];
    assert ResolveFrom([], names, true) == ResolveFrom([], names[1..], true);
    assert ResolveFrom([], names[1..], true) == ResolveFrom(["r"], names[2..], true);
    assert ResolveFrom(["r"], names[2..], true) == ResolveFrom([], names[3..], true);
    assert ResolveFrom([], names[3..], true) == ResolveFrom([], names[4..], true);
    assert ResolveFrom([], names[4..], true) == ResolveFrom(["x"], [], true);
  }

  // -----------------------------------------------------------------------
  // Delete policies and ordering

  /** With a sub-directory the list of files to delete plays no part. */
  lemma ReplaceModeIgnoresDeleteList(w: GitWriter, b: Backend, subDir: string, workPlacementName: string,
                                     creates: seq<Workload>, deletes: seq<string>)
    requires subDir != ""
    ensures Update(w, b, subDir, workPlacementName, creates, deletes)
         == Update(w, b, subDir, workPlacementName, creates, [])
  {
  }

  /** Directory-replace: after a published update nothing that was under the
      directory survives unless a workload wrote it, and everything outside
      the directory that no workload wrote is unchanged. */
  lemma ReplaceClearsDirectory(w: GitWriter, b: Backend, subDir: string, workPlacementName: string,
                               creates: seq<Workload>, deletes: seq<string>, k: string)
    requires subDir != ""
    requires Published(Update(w, b, subDir, workPlacementName, creates, deletes))
    requires b.checkout.Some?
    requires k !in Writes(DirInRepo(w, subDir), creates)
    ensures var after := Update(w, b, subDir, workPlacementName, creates, deletes).value.tree;
      var before := b.checkout.value.tree;
      && (Reaches(DirInRepo(w, subDir), k) ==> k !in after)
      && (!Reaches(DirInRepo(w, subDir), k) ==> (k in after <==> k in before))
      && (!Reaches(DirInRepo(w, subDir), k) && k in before ==> after[k] == before[k])
  {
  }

  /** Selective delete: after a published update a file not written by a
      workload is gone exactly when a listed path covers it; every other file
      keeps its content. */
  lemma SelectiveDeleteSparesOthers(w: GitWriter, b: Backend, workPlacementName: string,
                                    creates: seq<Workload>, deletes: seq<string>, k: string)
    requires Published(Update(w, b, "", workPlacementName, creates, deletes))
    requires b.checkout.Some?
    requires k !in Writes(DirInRepo(w, ""), creates)
    ensures var after := Update(w, b, "", workPlacementName, creates, deletes).value.tree;
      var before := b.checkout.value.tree;
      && (k in after <==> k in before && !Listed(DirInRepo(w, ""), deletes, k))
      && (k in after ==> after[k] == before[k])
  {
  }

  /** Deleting only paths that do not exist is not an error: with a working
      status call the update finds nothing to commit, even when those paths
      could not have been removed. */
  lemma AbsentDeletesAreSkipped(w: GitWriter, b: Backend, workPlacementName: string, deletes: seq<string>)
    requires b.checkout.Some? && !b.statusFails
    requires forall f :: f in deletes ==> !Exists(b.checkout.value.tree, Join2(DirInRepo(w, ""), f))
    ensures |deletes| > 0 ==> Update(w, b, "", workPlacementName, [], deletes) == Ok(NoChanges)
  {
    var t := b.checkout.value.tree;
    var dir := DirInRepo(w, "");
    forall k | k in t ensures !Listed(dir, deletes, k) {
      forall f | f in deletes ensures !Reaches(Join2(dir, f), k) {
        assert !Exists(t, Join2(dir, f));
      }
    }
    assert Prune(t, false, dir, deletes) == t;
    assert DesiredTree(t, false, dir, deletes, []) == t;
    forall i | 0 <= i < |deletes| ensures !Blocked(dir, deletes, t, b.brokenPaths, i) {
      assert deletes[i] in deletes;
      AbsentInSubtree(Prune(t, false, dir, deletes[..i]), t, Join2(dir, deletes[i]));
    }
  }

  /** Replacing a directory that does not exist is not an error either: its
      removal is never tried, so whether it would fail plays no part, and an
      update whose workloads are all staged goes on to commit and push. */
  lemma AbsentDirectoryIsSkipped(w: GitWriter, b: Backend, subDir: string, workPlacementName: string,
                                 creates: seq<Workload>, deletes: seq<string>)
    requires subDir != "" && b.checkout.Some?
    requires !Exists(b.checkout.value.tree, DirInRepo(w, subDir))
    requires WrittenBefore(b.checkout.value.root, DirInRepo(w, subDir), creates, b.brokenPaths, |creates|)
    requires !b.statusFails && !b.commitFails && !b.pushFails
    ensures var wanted := WantedTree(w, b.checkout.value.tree, subDir, creates, deletes);
      Update(w, b, subDir, workPlacementName, creates, deletes)
        == if wanted == b.checkout.value.tree then Ok(NoChanges)
           else Ok(Pushed(w.author, CommitMessage(Action(creates), workPlacementName), wanted))
  {
    assert ReachesCommit(w, b, subDir, creates, deletes);
  }

  /** The clone's root always exists, even on a branch with no files: reading
      it passes the existence check and then fails as a directory read. */
  lemma RootReadsAsDirectory(b: Backend, filePath: string)
    requires b.checkout.Some? && "." !in b.checkout.value.tree
    requires Inside(filePath) && Key(filePath) == "."
    ensures ReadFile(b, filePath) == Err(ReadFailed("."))
  {
  }

  /** The empty path names the clone's root. */
  lemma EmptyPathIsRoot()
    ensures Inside("") && Key("") == "."
  {
    assert Split("") == [""];
    assert Names("") == [];
  }

  /** Replacing a working directory that is the clone's root tries the removal
      even on an empty branch, so a failing removal is the error. */
  lemma RootRemovalFailureSurfaces(w: GitWriter, b: Backend, subDir: string, workPlacementName: string,
                                   creates: seq<Workload>, deletes: seq<string>)
    requires subDir != "" && b.checkout.Some?
    requires Inside(DirInRepo(w, subDir)) && Key(DirInRepo(w, subDir)) == "."
    requires "." in b.brokenPaths
    ensures Update(w, b, subDir, workPlacementName, creates, deletes) == Err(RemoveFailed(DirInRepo(w, subDir)))
  {
  }

  /** A path absent from a tree is absent from every subtree of it. */
  lemma AbsentInSubtree(small: Tree, large: Tree, p: string)
    requires forall k :: k in small ==> k in large
    requires !Exists(large, p)
    ensures !Exists(small, p)
  {
    forall k | k in small ensures !Reaches(p, k) {
      assert k in large;
    }
  }

  /** All deletions precede all creations: a file that is both deleted and
      written ends up holding the content of its last workload. */
  lemma DeletedThenWrittenKeepsNewContent(w: GitWriter, b: Backend, subDir: string, workPlacementName: string,
                                          creates: seq<Workload>, deletes: seq<string>, i: int)
    requires Published(Update(w, b, subDir, workPlacementName, creates, deletes))
    requires b.checkout.Some?
    requires 0 <= i < |creates| && LastFor(DirInRepo(w, subDir), creates, i)
    requires Doomed(subDir != "", DirInRepo(w, subDir), deletes, Place(DirInRepo(w, subDir), creates[i]))
    ensures var after := Update(w, b, subDir, workPlacementName, creates, deletes).value.tree;
      Place(DirInRepo(w, subDir), creates[i]) in after
      && after[Place(DirInRepo(w, subDir), creates[i])] == creates[i].content
  {
    var dir := DirInRepo(w, subDir);
    var written := Writes(dir, creates);
    assert written[Place(dir, creates[i])] == creates[i].content;
  }

  // -----------------------------------------------------------------------
  // Reading back

  /** After a published update, reading a workload's path from a checkout of
      the pushed branch returns the content of the last workload for that key. */
  lemma ReadBackAfterPublish(w: GitWriter, first: Backend, second: Backend, subDir: string, workPlacementName: string,
                             creates: seq<Workload>, deletes: seq<string>, i: int)
    requires Published(Update(w, first, subDir, workPlacementName, creates, deletes))
    requires first.checkout.Some?
    requires second.checkout.Some?
    requires second.checkout.value.tree == Update(w, first, subDir, workPlacementName, creates, deletes).value.tree
    requires 0 <= i < |creates| && LastFor(DirInRepo(w, subDir), creates, i)
    ensures ReadFile(second, Target(DirInRepo(w, subDir), creates[i])) == Ok(creates[i].content)
  {
    var dir := DirInRepo(w, subDir);
    assert WrittenBefore(first.checkout.value.root, dir, creates, first.brokenPaths, |creates|);
    assert Writable(Target(dir, creates[i]), first.brokenPaths);
    var written := Writes(dir, creates);
    assert written[Place(dir, creates[i])] == creates[i].content;
  }
}

=== FILE: reader.dfy ===
/** `ReadFile`: read one file back from a fresh checkout of the branch. */
module Reader {
  import opened Results
  import opened Paths
  import opened Worktree
  import opened Types

  /** `FileNotFound` when nothing exists at the path, the stored bytes when a
      file does; a directory exists but cannot be read as a file. The path is
      read relative to the clone, so "/a" and "a" read the same file. */
  function ReadFile(b: Backend, filePath: string): (r: Result<Bytes, GitError>)
    ensures b.checkout.None? ==> r == Err(SetupFailed)
    ensures r == Err(FileNotFound) <==> b.checkout.Some? && !Exists(b.checkout.value.tree, filePath)
    ensures r.Ok? <==> b.checkout.Some? && Inside(filePath) && Key(filePath) in b.checkout.value.tree
    ensures r.Ok? ==> r.value == b.checkout.value.tree[Key(filePath)]
  {
    match b.checkout
    case None => Err(SetupFailed)
    case Some(co) =>
      if !Exists(co.tree, filePath) then Err(FileNotFound)
      else if Key(filePath) in co.tree then Ok(co.tree[Key(filePath)])
      else Err(ReadFailed(Key(filePath)))
  }

  /** A path with and without a leading "/" reads alike. */
  lemma LeadingSlashReadsAlike(b: Backend, filePath: string)
    requires Inside(filePath)
    ensures ReadFile(b, "/" + filePath) == ReadFile(b, filePath)
  {
    KeyIgnoresLeadingSlash(filePath);
    if b.checkout.Some? {
      LeadingSlashAlike(b.checkout.value.tree, filePath);
    }
  }
}

=== FILE: reconcile.dfy ===
/** `update` (reached through `UpdateFiles`), `deleteExistingFiles` and
    `commitAndPush`: one clone-modify-commit-push cycle over a fresh checkout. */
module Reconcile {
  import opened Results
  import opened Paths
  import opened Worktree
  import opened Types
  import opened Desired

  /** The `i`-th listed path still exists when the loop reaches it, and removing it fails. */
  predicate Blocked(dir: string, toDelete: seq<string>, t: Tree, broken: set<string>, i: int)
    requires 0 <= i < |toDelete|
  {
    Exists(Prune(t, false, dir, toDelete[..i]), Join2(dir, toDelete[i])) && Key(Join2(dir, toDelete[i])) in broken
  }

  /** The `i`-th listed path is the first one whose removal fails. */
  predicate FirstBlocked(dir: string, toDelete: seq<string>, t: Tree, broken: set<string>, i: int)
  {
    && 0 <= i < |toDelete|
    && Blocked(dir, toDelete, t, broken, i)
    && forall j :: 0 <= j < i ==> !Blocked(dir, toDelete, t, broken, j)
  }

  /** What the selective delete loop promises: it succeeds exactly when no
      listed path is blocked, leaving the tree without everything the listed
      paths name; otherwise it fails on the first blocked path. */
  predicate RemovalMeets(dir: string, toDelete: seq<string>, t: Tree, broken: set<string>, r: Result<Tree, GitError>)
  {
    && (r.Ok? <==> forall i :: 0 <= i < |toDelete| ==> !Blocked(dir, toDelete, t, broken, i))
    && (r.Ok? ==> r.value == Prune(t, false, dir, toDelete))
    && (forall i :: 0 <= i < |toDelete| && FirstBlocked(dir, toDelete, t, broken, i) ==> r == Err(RemoveFailed(Join2(dir, toDelete[i]))))
    && (r.Err? ==>
          && r.error.RemoveFailed? && Key(r.error.path) in broken && Exists(t, r.error.path)
          && exists f :: f in toDelete && r.error.path == Join2(dir, f))
  }

  /** Selective delete: each listed file, joined onto `dir`, is skipped when it
      does not exist and removed when it does; a failed removal ends the loop. */
  function RemoveListed(dir: string, toDelete: seq<string>, t: Tree, broken: set<string>): (r: Result<Tree, GitError>)
    ensures RemovalMeets(dir, toDelete, t, broken, r)
    decreases |toDelete|
  {
    if |toDelete| == 0 then
      NothingListed(t, dir, toDelete);
      Ok(t)
    else
      var p := Join2(dir, toDelete[0]);
      if !Exists(t, p) then
        var r := RemoveListed(dir, toDelete[1..], t, broken);
        RemoveStep(dir, toDelete, t, broken, r);
        r
      else if Key(p) in broken then
        StopStep(dir, toDelete, t, broken);
        Err(RemoveFailed(p))
      else
        var r := RemoveListed(dir, toDelete[1..], RemoveTree(t, p), broken);
        RemoveStep(dir, toDelete, t, broken, r);
        r
  }

  lemma NothingListed(t: Tree, dir: string, toDelete: seq<string>)
    requires |toDelete| == 0
    ensures Prune(t, false, dir, toDelete) == t
  {
    assert forall k :: !Listed(dir, toDelete, k);
  }

  lemma PruneAfterRemove(t: Tree, dir: string, toDelete: seq<string>)
    requires |toDelete| > 0
    ensures Prune(RemoveTree(t, Join2(dir, toDelete[0])), false, dir, toDelete[1..]) == Prune(t, false, dir, toDelete)
  {
    var p := Join2(dir, toDelete[0]);
    forall k | k in t ensures (!Reaches(p, k) && !Listed(dir, toDelete[1..], k)) <==> !Listed(dir, toDelete, k) {
      if Listed(dir, toDelete, k) {
        var f :| f in toDelete && Reaches(Join2(dir, f), k);
        if f != toDelete[0] { assert f in toDelete[1..]; }
      }
      if Reaches(p, k) { assert toDelete[0] in toDelete; }
    }
  }

  /** After the first listed path is handled, the later paths are blocked
      exactly when they were blocked for the whole loop. */
  lemma BlockedShift(dir: string, toDelete: seq<string>, t: Tree, broken: set<string>, i: int)
    requires 1 <= i < |toDelete|
    ensures Blocked(dir, toDelete, t, broken, i)
        <==> Blocked(dir, toDelete[1..], RemoveTree(t, Join2(dir, toDelete[0])), broken, i - 1)
  {
    var s := toDelete[..i];
    assert s[0] == toDelete[0];
    assert s[1..] == toDelete[1..][..i - 1];
    assert toDelete[1..][i - 1] == toDelete[i];
    PruneAfterRemove(t, dir, s);
  }

  lemma StopStep(dir: string, toDelete: seq<string>, t: Tree, broken: set<string>)
    requires |toDelete| > 0
    requires Exists(t, Join2(dir, toDelete[0])) && Key(Join2(dir, toDelete[0])) in broken
    ensures RemovalMeets(dir, toDelete, t, broken, Err(RemoveFailed(Join2(dir, toDelete[0]))))
  {
    NothingListed(t, dir, toDelete[..0]);
    assert Blocked(dir, toDelete, t, broken, 0);
    assert toDelete[0] in toDelete;
  }

  /** Handling the first listed path without failing shifts the question of
      which later paths are blocked onto the rest of the loop. */
  lemma ShiftBlocked(dir: string, toDelete: seq<string>, t: Tree, broken: set<string>)
    requires |toDelete| > 0
    requires !(Exists(t, Join2(dir, toDelete[0])) && Key(Join2(dir, toDelete[0])) in broken)
    ensures !Blocked(dir, toDelete, t, broken, 0)
    ensures forall i :: 1 <= i < |toDelete| ==>
      Blocked(dir, toDelete, t, broken, i) ==
      Blocked(dir, toDelete[1..], RemoveTree(t, Join2(dir, toDelete[0])), broken, i - 1)
  {
    NothingListed(t, dir, toDelete[..0]);
    forall i | 1 <= i < |toDelete|
      ensures Blocked(dir, toDelete, t, broken, i)
          <==> Blocked(dir, toDelete[1..], RemoveTree(t, Join2(dir, toDelete[0])), broken, i - 1)
    {
      BlockedShift(dir, toDelete, t, broken, i);
    }
  }

  lemma RemoveStep(dir: string, toDelete: seq<string>, t: Tree, broken: set<string>, r: Result<Tree, GitError>)
    requires |toDelete| > 0
    requires !(Exists(t, Join2(dir, toDelete[0])) && Key(Join2(dir, toDelete[0])) in broken)
    requires RemovalMeets(dir, toDelete[1..], RemoveTree(t, Join2(dir, toDelete[0])), broken, r)
    ensures RemovalMeets(dir, toDelete, t, broken, r)
  {
    ShiftBlocked(dir, toDelete, t, broken);
    if r.Ok? {
      RemoveStepOk(dir, toDelete, t, broken, r);
    } else {
      RemoveStepErr(dir, toDelete, t, broken, r);
    }
  }

  lemma RemoveStepOk(dir: string, toDelete: seq<string>, t: Tree, broken: set<string>, r: Result<Tree, GitError>)
    requires |toDelete| > 0 && r.Ok?
    requires !(Exists(t, Join2(dir, toDelete[0])) && Key(Join2(dir, toDelete[0])) in broken)
    requires RemovalMeets(dir, toDelete[1..], RemoveTree(t, Join2(dir, toDelete[0])), broken, r)
    ensures RemovalMeets(dir, toDelete, t, broken, r)
  {
    var rest := toDelete[1..];
    var t' := RemoveTree(t, Join2(dir, toDelete[0]));
    ShiftBlocked(dir, toDelete, t, broken);
    PruneAfterRemove(t, dir, toDelete);
    forall i | 0 <= i < |toDelete| ensures !Blocked(dir, toDelete, t, broken, i) {
      if i > 0 { assert !Blocked(dir, rest, t', broken, i - 1); }
    }
  }

  lemma RemoveStepErr(dir: string, toDelete: seq<string>, t: Tree, broken: set<string>, r: Result<Tree, GitError>)
    requires |toDelete| > 0 && r.Err?
    requires !(Exists(t, Join2(dir, toDelete[0])) && Key(Join2(dir, toDelete[0])) in broken)
    requires RemovalMeets(dir, toDelete[1..], RemoveTree(t, Join2(dir, toDelete[0])), broken, r)
    ensures RemovalMeets(dir, toDelete, t, broken, r)
  {
    ErrStillBlocked(dir, toDelete, t, broken, r);
    ErrPathListed(dir, toDelete, t, broken, r);
    forall n | 0 <= n < |toDelete| && FirstBlocked(dir, toDelete, t, broken, n)
      ensures r == Err(RemoveFailed(Join2(dir, toDelete[n])))
    {
      FirstBlockedShift(dir, toDelete, t, broken, n);
    }
  }

  lemma ErrStillBlocked(dir: string, toDelete: seq<string>, t: Tree, broken: set<string>, r: Result<Tree, GitError>)
    requires |toDelete| > 0 && r.Err?
    requires !(Exists(t, Join2(dir, toDelete[0])) && Key(Join2(dir, toDelete[0])) in broken)
    requires RemovalMeets(dir, toDelete[1..], RemoveTree(t, Join2(dir, toDelete[0])), broken, r)
    ensures exists i :: 0 <= i < |toDelete| && Blocked(dir, toDelete, t, broken, i)
  {
    var i :| 0 <= i < |toDelete[1..]| && Blocked(dir, toDelete[1..], RemoveTree(t, Join2(dir, toDelete[0])), broken, i);
    BlockedShift(dir, toDelete, t, broken, i + 1);
    assert Blocked(dir, toDelete, t, broken, i + 1);
  }

  lemma ErrPathListed(dir: string, toDelete: seq<string>, t: Tree, broken: set<string>, r: Result<Tree, GitError>)
    requires |toDelete| > 0 && r.Err?
    requires RemovalMeets(dir, toDelete[1..], RemoveTree(t, Join2(dir, toDelete[0])), broken, r)
    ensures r.error.RemoveFailed? && Key(r.error.path) in broken && Exists(t, r.error.path)
    ensures exists f :: f in toDelete && r.error.path == Join2(dir, f)
  {
    var f :| f in toDelete[1..] && r.error.path == Join2(dir, f);
    assert f in toDelete;
    ExistsInLarger(RemoveTree(t, Join2(dir, toDelete[0])), t, r.error.path);
  }

  /** A path that exists in a subtree exists in the whole tree. */
  lemma ExistsInLarger(small: Tree, large: Tree, p: string)
    requires forall k :: k in small ==> k in large
    requires Exists(small, p)
    ensures Exists(large, p)
  {
    if Key(p) != "." {
      var k :| k in small && Reaches(p, k);
      assert k in large;
    }
  }

  lemma FirstBlockedShift(dir: string, toDelete: seq<string>, t: Tree, broken: set<string>, n: int)
    requires 0 <= n < |toDelete| && FirstBlocked(dir, toDelete, t, broken, n)
    requires !(Exists(t, Join2(dir, toDelete[0])) && Key(Join2(dir, toDelete[0])) in broken)
    ensures 1 <= n && toDelete[1..][n - 1] == toDelete[n]
    ensures FirstBlocked(dir, toDelete[1..], RemoveTree(t, Join2(dir, toDelete[0])), broken, n - 1)
  {
    var rest := toDelete[1..];
    var t' := RemoveTree(t, Join2(dir, toDelete[0]));
    ShiftBlocked(dir, toDelete, t, broken);
    forall j | 0 <= j < n - 1 ensures !Blocked(dir, rest, t', broken, j) {
      assert !Blocked(dir, toDelete, t, broken, j + 1);
    }
  }

  /** `deleteExistingFiles`: replace the whole directory, or remove only the listed files. */
  function DeleteExistingFiles(removeDirectory: bool, dir: string, toDelete: seq<string>, t: Tree, broken: set<string>)
    : (r: Result<Tree, GitError>)
    ensures r.Ok? ==> r.value == Prune(t, removeDirectory, dir, toDelete)
    ensures r.Err? ==> r.error.RemoveFailed? && Key(r.error.path) in broken && Exists(t, r.error.path)
    ensures removeDirectory ==> (r.Err? <==> Exists(t, dir) && Key(dir) in broken)
    ensures removeDirectory && r.Err? ==> r.error.path == dir
    ensures removeDirectory && !Exists(t, dir) ==> r == Ok(t)
    ensures !removeDirectory ==> (r.Ok? <==> forall i :: 0 <= i < |toDelete| ==> !Blocked(dir, toDelete, t, broken, i))
    ensures !removeDirectory ==>
      forall i :: 0 <= i < |toDelete| && FirstBlocked(dir, toDelete, t, broken, i) ==> r == Err(RemoveFailed(Join2(dir, toDelete[i])))
    ensures !removeDirectory && r.Err? ==> exists f :: f in toDelete && r.error.path == Join2(dir, f)
    ensures !removeDirectory && (forall f :: f in toDelete ==> Key(Join2(dir, f)) !in broken) ==> r.Ok?
  {
    if removeDirectory then
      if Exists(t, dir) then
        if Key(dir) in broken then Err(RemoveFailed(dir)) else Ok(RemoveTree(t, dir))
      else
        Ok(t)
    else
      var r := RemoveListed(dir, toDelete, t, broken);
      NoBrokenListedPath(dir, toDelete, t, broken, r);
      r
  }

  lemma NoBrokenListedPath(dir: string, toDelete: seq<string>, t: Tree, broken: set<string>, r: Result<Tree, GitError>)
    requires RemovalMeets(dir, toDelete, t, broken, r)
    ensures (forall f :: f in toDelete ==> Key(Join2(dir, f)) !in broken) ==> r.Ok?
  {
    if forall f :: f in toDelete ==> Key(Join2(dir, f)) !in broken {
      forall i | 0 <= i < |toDelete| ensures !Blocked(dir, toDelete, t, broken, i) {
        assert toDelete[i] in toDelete;
      }
    }
  }

  /** The outcome of the create loop. */
  datatype Creation =
    | AllWritten(tree: Tree)
    | Escaped(absolutePath: string)
    | NotWritten(path: string)

  /** Every workload before index `n` passed the guard and was written and staged. */
  predicate WrittenBefore(root: string, dir: string, creates: seq<Workload>, broken: set<string>, n: int)
    requires 0 <= n <= |creates|
  {
    forall j :: 0 <= j < n ==> Admitted(root, Target(dir, creates[j])) && Writable(Target(dir, creates[j]), broken)
  }

  /** What the create loop promises: it stages every workload exactly when
      all of them pass the guard and can be written, the result then being the
      old tree overwritten by the workloads; otherwise the first workload that
      escapes the root or cannot be written decides the outcome. */
  predicate CreationMeets(root: string, dir: string, creates: seq<Workload>, t: Tree, broken: set<string>, r: Creation)
  {
    && (r.AllWritten? <==> WrittenBefore(root, dir, creates, broken, |creates|))
    && (r.AllWritten? ==> r.tree == t + Writes(dir, creates))
    && (forall i :: 0 <= i < |creates| && WrittenBefore(root, dir, creates, broken, i) ==>
          (!Admitted(root, Target(dir, creates[i])) ==> r == Escaped(Join2(root, Target(dir, creates[i])))))
    && (forall i :: 0 <= i < |creates| && WrittenBefore(root, dir, creates, broken, i) ==>
          (Admitted(root, Target(dir, creates[i])) && !Writable(Target(dir, creates[i]), broken) ==>
             r == NotWritten(Target(dir, creates[i]))))
    && (r.Escaped? ==>
          exists i :: 0 <= i < |creates| && WrittenBefore(root, dir, creates, broken, i)
            && !Admitted(root, Target(dir, creates[i])) && r.absolutePath == Join2(root, Target(dir, creates[i])))
    && (r.NotWritten? ==>
          exists i :: 0 <= i < |creates| && WrittenBefore(root, dir, creates, broken, i)
            && Admitted(root, Target(dir, creates[i])) && r.path == Target(dir, creates[i])
            && !Writable(r.path, broken))
  }

  /** The create loop: each workload is checked against the temporary root,
      then written and staged; the first escaping or unwritable one stops it. */
  function CreateWorkloads(root: string, dir: string, creates: seq<Workload>, t: Tree, broken: set<string>)
    : (r: Creation)
    ensures CreationMeets(root, dir, creates, t, broken, r)
    decreases |creates|
  {
    if |creates| == 0 then
      assert t + Writes(dir, creates) == t;
      AllWritten(t)
    else
      var p := Target(dir, creates[0]);
      var absolute := Join2(root, p);
      if !HasPrefix(absolute, root) then
        FirstStops(root, dir, creates, broken);
        Escaped(absolute)
      else if !Writable(p, broken) then
        FirstStops(root, dir, creates, broken);
        NotWritten(p)
      else
        var r := CreateWorkloads(root, dir, creates[1..], t[Place(dir, creates[0]) := creates[0].content], broken);
        CreateStep(root, dir, creates, t, broken, r);
        r
  }

  /** When the first workload fails the guard or cannot be written, only index 0 has every earlier workload through. */
  lemma FirstStops(root: string, dir: string, creates: seq<Workload>, broken: set<string>)
    requires |creates| > 0
    requires !(Admitted(root, Target(dir, creates[0])) && Writable(Target(dir, creates[0]), broken))
    ensures WrittenBefore(root, dir, creates, broken, 0)
    ensures forall i :: 0 < i <= |creates| ==> !WrittenBefore(root, dir, creates, broken, i)
  {
  }

  lemma WrittenBeforeShift(root: string, dir: string, creates: seq<Workload>, broken: set<string>, n: int)
    requires 1 <= n <= |creates|
    requires Admitted(root, Target(dir, creates[0])) && Writable(Target(dir, creates[0]), broken)
    ensures WrittenBefore(root, dir, creates, broken, n) <==> WrittenBefore(root, dir, creates[1..], broken, n - 1)
  {
    if WrittenBefore(root, dir, creates[1..], broken, n - 1) {
      WrittenBeforeCons(root, dir, creates, broken, n);
    }
    if WrittenBefore(root, dir, creates, broken, n) {
      WrittenBeforeTail(root, dir, creates, broken, n);
    }
  }

  lemma WrittenBeforeCons(root: string, dir: string, creates: seq<Workload>, broken: set<string>, n: int)
    requires 1 <= n <= |creates|
    requires Admitted(root, Target(dir, creates[0])) && Writable(Target(dir, creates[0]), broken)
    requires WrittenBefore(root, dir, creates[1..], broken, n - 1)
    ensures WrittenBefore(root, dir, creates, broken, n)
  {
    var rest := creates[1..];
    forall j | 0 <= j < n ensures Admitted(root, Target(dir, creates[j])) && Writable(Target(dir, creates[j]), broken) {
      if j > 0 { assert creates[j] == rest[j - 1]; }
    }
  }

  lemma WrittenBeforeTail(root: string, dir: string, creates: seq<Workload>, broken: set<string>, n: int)
    requires 1 <= n <= |creates|
    requires WrittenBefore(root, dir, creates, broken, n)
    ensures WrittenBefore(root, dir, creates[1..], broken, n - 1)
  {
    var rest := creates[1..];
    forall j | 0 <= j < n - 1 ensures Admitted(root, Target(dir, rest[j])) && Writable(Target(dir, rest[j]), broken) {
      assert rest[j] == creates[j + 1];
    }
  }

  lemma CreateStep(root: string, dir: string, creates: seq<Workload>, t: Tree, broken: set<string>, r: Creation)
    requires |creates| > 0
    requires Admitted(root, Target(dir, creates[0])) && Writable(Target(dir, creates[0]), broken)
    requires CreationMeets(root, dir, creates[1..], t[Place(dir, creates[0]) := creates[0].content], broken, r)
    ensures CreationMeets(root, dir, creates, t, broken, r)
  {
    WrittenBeforeShift(root, dir, creates, broken, |creates|);
    if r.AllWritten? {
      WritesCons(dir, creates, t);
    }
    if r.Escaped? || r.NotWritten? {
      StoppedStep(root, dir, creates, t, broken, r);
    }
    FirstFaultStep(root, dir, creates, t, broken, r);
  }

  lemma FirstFaultStep(root: string, dir: string, creates: seq<Workload>, t: Tree, broken: set<string>, r: Creation)
    requires |creates| > 0
    requires Admitted(root, Target(dir, creates[0])) && Writable(Target(dir, creates[0]), broken)
    requires CreationMeets(root, dir, creates[1..], t[Place(dir, creates[0]) := creates[0].content], broken, r)
    ensures forall i :: 0 <= i < |creates| && WrittenBefore(root, dir, creates, broken, i) ==>
      (!Admitted(root, Target(dir, creates[i])) ==> r == Escaped(Join2(root, Target(dir, creates[i]))))
    ensures forall i :: 0 <= i < |creates| && WrittenBefore(root, dir, creates, broken, i) ==>
      (Admitted(root, Target(dir, creates[i])) && !Writable(Target(dir, creates[i]), broken) ==>
         r == NotWritten(Target(dir, creates[i])))
  {
    forall i | 0 <= i < |creates| && WrittenBefore(root, dir, creates, broken, i)
      ensures !Admitted(root, Target(dir, creates[i])) ==> r == Escaped(Join2(root, Target(dir, creates[i])))
      ensures Admitted(root, Target(dir, creates[i])) && !Writable(Target(dir, creates[i]), broken) ==>
        r == NotWritten(Target(dir, creates[i]))
    {
      if i > 0 {
        ShiftedFault(root, dir, creates, broken, i);
      }
    }
  }

  /** A later workload with every earlier one through is, one step on, a
      workload of the rest with every earlier one through. */
  lemma ShiftedFault(root: string, dir: string, creates: seq<Workload>, broken: set<string>, i: int)
    requires 1 <= i < |creates|
    requires Admitted(root, Target(dir, creates[0])) && Writable(Target(dir, creates[0]), broken)
    requires WrittenBefore(root, dir, creates, broken, i)
    ensures WrittenBefore(root, dir, creates[1..], broken, i - 1) && creates[i] == creates[1..][i - 1]
  {
    WrittenBeforeTail(root, dir, creates, broken, i);
    assert creates[i] == creates[1..][i - 1];
  }

  lemma WritesCons(dir: string, creates: seq<Workload>, t: Tree)
    requires |creates| > 0
    ensures t[Place(dir, creates[0]) := creates[0].content] + Writes(dir, creates[1..]) == t + Writes(dir, creates)
  {
    var p := Place(dir, creates[0]);
    var rest := Writes(dir, creates[1..]);
    assert Writes(dir, creates) == map[p := creates[0].content] + rest;
    UpdateThenUnion(t, p, creates[0].content, rest);
  }

  lemma UpdateThenUnion<K, V>(t: map<K, V>, p: K, v: V, rest: map<K, V>)
    ensures t[p := v] + rest == t + (map[p := v] + rest)
  {
  }

  lemma StoppedStep(root: string, dir: string, creates: seq<Workload>, t: Tree, broken: set<string>, r: Creation)
    requires |creates| > 0
    requires Admitted(root, Target(dir, creates[0])) && Writable(Target(dir, creates[0]), broken)
    requires r.Escaped? || r.NotWritten?
    requires CreationMeets(root, dir, creates[1..], t[Place(dir, creates[0]) := creates[0].content], broken, r)
    ensures CreationMeets(root, dir, creates, t, broken, r)
  {
    WrittenBeforeShift(root, dir, creates, broken, |creates|);
    FirstFaultStep(root, dir, creates, t, broken, r);
    if r.Escaped? {
      EscapedStep(root, dir, creates, broken, r);
    } else {
      NotWrittenStep(root, dir, creates, broken, r);
    }
  }

  lemma EscapedStep(root: string, dir: string, creates: seq<Workload>, broken: set<string>, r: Creation)
    requires |creates| > 0 && r.Escaped?
    requires Admitted(root, Target(dir, creates[0])) && Writable(Target(dir, creates[0]), broken)
    requires exists i :: (0 <= i < |creates[1..]| && WrittenBefore(root, dir, creates[1..], broken, i)
      && !Admitted(root, Target(dir, creates[1..][i])) && r.absolutePath == Join2(root, Target(dir, creates[1..][i])))
    ensures exists i :: (0 <= i < |creates| && WrittenBefore(root, dir, creates, broken, i)
      && !Admitted(root, Target(dir, creates[i])) && r.absolutePath == Join2(root, Target(dir, creates[i])))
  {
    var rest := creates[1..];
    var i :| 0 <= i < |rest| && WrittenBefore(root, dir, rest, broken, i)
      && !Admitted(root, Target(dir, rest[i])) && r.absolutePath == Join2(root, Target(dir, rest[i]));
    WrittenBeforeShift(root, dir, creates, broken, i + 1);
    assert rest[i] == creates[i + 1];
  }

  lemma NotWrittenStep(root: string, dir: string, creates: seq<Workload>, broken: set<string>, r: Creation)
    requires |creates| > 0 && r.NotWritten?
    requires Admitted(root, Target(dir, creates[0])) && Writable(Target(dir, creates[0]), broken)
    requires exists i :: (0 <= i < |creates[1..]| && WrittenBefore(root, dir, creates[1..], broken, i)
      && Admitted(root, Target(dir, creates[1..][i])) && r.path == Target(dir, creates[1..][i])
      && !Writable(r.path, broken))
    ensures exists i :: (0 <= i < |creates| && WrittenBefore(root, dir, creates, broken, i)
      && Admitted(root, Target(dir, creates[i])) && r.path == Target(dir, creates[i]) && !Writable(r.path, broken))
  {
    var rest := creates[1..];
    var i :| 0 <= i < |rest| && WrittenBefore(root, dir, rest, broken, i)
      && Admitted(root, Target(dir, rest[i])) && r.path == Target(dir, rest[i]) && !Writable(r.path, broken);
    WrittenBeforeShift(root, dir, creates, broken, i + 1);
    assert rest[i] == creates[i + 1];
  }

  // -----------------------------------------------------------------------
  // Commit and publish

  /** "Update" when there is something to create, "Delete" otherwise. */
  function Action(creates: seq<Workload>): (a: string)
    ensures a == "Delete" <==> |creates| == 0
    ensures a == "Update" <==> |creates| > 0
  {
    if |creates| > 0 then "Update" else "Delete"
  }

  /** The commit message; the action and the work placement name can be read back from it. */
  function CommitMessage(action: string, workPlacementName: string): (m: string)
    ensures |m| == |action| + 7 + |workPlacementName|
    ensures m[..|action|] == action
    ensures m[|action|..|action| + 7] == " from: "
    ensures m[|action| + 7..] == workPlacementName
  {
    action + " from: " + workPlacementName
  }

  /** `commitAndPush`: a clean status ends the call without a commit; otherwise
      the staged tree is committed by the writer's author and pushed. */
  function CommitAndPush(w: GitWriter, b: Backend, head: Tree, staged: Tree, action: string, workPlacementName: string)
    : (r: Result<Effect, GitError>)
    ensures r == Ok(NoChanges) <==> !b.statusFails && staged == head
    ensures r.Ok? && r.value.Pushed? <==> !b.statusFails && staged != head && !b.commitFails && !b.pushFails
    ensures r.Ok? ==> r.value.NoChanges? || r.value.Pushed?
    ensures r.Ok? && r.value.Pushed? ==>
      r.value.tree == staged && r.value.author == w.author
      && r.value.message == CommitMessage(action, workPlacementName)
    ensures r.Err? ==> r.error == StatusFailed || r.error == CommitFailed || r.error == PushFailed
    ensures b.statusFails ==> r == Err(StatusFailed)
    ensures !b.statusFails && staged != head && b.commitFails ==> r == Err(CommitFailed)
    ensures !b.statusFails && staged != head && !b.commitFails && b.pushFails ==> r == Err(PushFailed)
  {
    if b.statusFails then Err(StatusFailed)
    else if staged == head then Ok(NoChanges)
    else if b.commitFails then Err(CommitFailed)
    else if b.pushFails then Err(PushFailed)
    else Ok(Pushed(w.author, CommitMessage(action, workPlacementName), staged))
  }

  // -----------------------------------------------------------------------
  // The whole update

  /** The directory an update works in: the writer's base path joined with the sub-directory. */
  function DirInRepo(w: GitWriter, subDir: string): (r: string)
    ensures r == "" <==> w.path == "" && subDir == ""
    ensures r != "" ==> Clean(r) == r
    ensures subDir == "" && w.path != "" ==> r == Clean(w.path)
  {
    if subDir == "" && w.path != "" then
      assert JoinWith([w.path, subDir]) == w.path + "/";
      TrailingSlashVanishes(w.path);
      Join2(w.path, subDir)
    else
      var r := Join2(w.path, subDir);
      if r != "" then JoinIsClean([w.path, subDir]); r else r
  }

  /** The tree an update wants on top of the checked-out tree `t`. */
  function WantedTree(w: GitWriter, t: Tree, subDir: string, creates: seq<Workload>, deletes: seq<string>): Tree
  {
    DesiredTree(t, subDir != "", DirInRepo(w, subDir), deletes, creates)
  }

  /** `update` has work: something to create, something to delete, or a directory to replace. */
  predicate HasWork(subDir: string, creates: seq<Workload>, deletes: seq<string>)
  {
    |creates| > 0 || |deletes| > 0 || subDir != ""
  }

  /** The delete phase gets through: the clone succeeds, and no removal it
      attempts fails. An absent path is skipped, so its removal is never tried. */
  predicate DeletesClear(w: GitWriter, b: Backend, subDir: string, deletes: seq<string>)
  {
    && b.checkout.Some?
    && if subDir != "" then
         !(Exists(b.checkout.value.tree, DirInRepo(w, subDir)) && Key(DirInRepo(w, subDir)) in b.brokenPaths)
       else
         forall i :: 0 <= i < |deletes| ==> !Blocked(DirInRepo(w, subDir), deletes, b.checkout.value.tree, b.brokenPaths, i)
  }

  /** In particular the delete phase gets through when no path it may remove is broken. */
  lemma NothingBrokenDeletesClear(w: GitWriter, b: Backend, subDir: string, deletes: seq<string>)
    requires b.checkout.Some?
    requires subDir != "" ==> Key(DirInRepo(w, subDir)) !in b.brokenPaths
    requires subDir == "" ==> forall f :: f in deletes ==> Key(Join2(DirInRepo(w, subDir), f)) !in b.brokenPaths
    ensures DeletesClear(w, b, subDir, deletes)
  {
    if subDir == "" {
      forall i | 0 <= i < |deletes|
        ensures !Blocked(DirInRepo(w, subDir), deletes, b.checkout.value.tree, b.brokenPaths, i)
      {
        assert deletes[i] in deletes;
      }
    }
  }

  /** The call gets as far as `commitAndPush`: it has work, the clone
      succeeds, no removal fails, and every workload passes the guard and is
      written and staged. */
  predicate ReachesCommit(w: GitWriter, b: Backend, subDir: string, creates: seq<Workload>, deletes: seq<string>)
  {
    && HasWork(subDir, creates, deletes)
    && b.checkout.Some?
    && DeletesClear(w, b, subDir, deletes)
    && WrittenBefore(b.checkout.value.root, DirInRepo(w, subDir), creates, b.brokenPaths, |creates|)
  }

  /** `update`: short-circuit when there is nothing to do; otherwise clone,
      delete, create, then commit and push if anything changed. */
  function Update(w: GitWriter, b: Backend, subDir: string, workPlacementName: string,
                  creates: seq<Workload>, deletes: seq<string>): (r: Result<Effect, GitError>)
    ensures r == Ok(NothingToDo) <==> !HasWork(subDir, creates, deletes)
    ensures r.Ok? && !r.value.NothingToDo? ==> b.checkout.Some?
    ensures HasWork(subDir, creates, deletes) && b.checkout.None? ==> r == Err(SetupFailed)
    // what a nil result implies
    ensures r == Ok(NoChanges) ==>
      WantedTree(w, b.checkout.value.tree, subDir, creates, deletes) == b.checkout.value.tree
    ensures r.Ok? && r.value.Pushed? ==>
      && r.value.tree == WantedTree(w, b.checkout.value.tree, subDir, creates, deletes)
      && r.value.tree != b.checkout.value.tree
      && r.value.message == CommitMessage(Action(creates), workPlacementName)
      && r.value.author == w.author
    ensures (r.Ok? && (r.value.Pushed? || r.value.NoChanges?)) ==>
      WrittenBefore(b.checkout.value.root, DirInRepo(w, subDir), creates, b.brokenPaths, |creates|)
    ensures r.Ok? && r.value.PathRejected? ==>
      exists i :: 0 <= i < |creates|
        && !Admitted(b.checkout.value.root, Target(DirInRepo(w, subDir), creates[i]))
        && r.value.absolutePath == Join2(b.checkout.value.root, Target(DirInRepo(w, subDir), creates[i]))
    // failed removals propagate
    ensures HasWork(subDir, creates, deletes) && b.checkout.Some? && subDir != ""
         && Exists(b.checkout.value.tree, DirInRepo(w, subDir)) && Key(DirInRepo(w, subDir)) in b.brokenPaths
        ==> r == Err(RemoveFailed(DirInRepo(w, subDir)))
    ensures HasWork(subDir, creates, deletes) && b.checkout.Some? && subDir == "" ==>
      forall i :: 0 <= i < |deletes| && FirstBlocked(DirInRepo(w, subDir), deletes, b.checkout.value.tree, b.brokenPaths, i)
        ==> r == Err(RemoveFailed(Join2(DirInRepo(w, subDir), deletes[i])))
    // the first workload that fails the guard or cannot be written decides the outcome
    ensures HasWork(subDir, creates, deletes) && DeletesClear(w, b, subDir, deletes) ==>
      forall i :: 0 <= i < |creates|
        && WrittenBefore(b.checkout.value.root, DirInRepo(w, subDir), creates, b.brokenPaths, i)
        && !Admitted(b.checkout.value.root, Target(DirInRepo(w, subDir), creates[i]))
        ==> r == Ok(PathRejected(Join2(b.checkout.value.root, Target(DirInRepo(w, subDir), creates[i]))))
    ensures HasWork(subDir, creates, deletes) && DeletesClear(w, b, subDir, deletes) ==>
      forall i :: 0 <= i < |creates|
        && WrittenBefore(b.checkout.value.root, DirInRepo(w, subDir), creates, b.brokenPaths, i)
        && Admitted(b.checkout.value.root, Target(DirInRepo(w, subDir), creates[i]))
        && !Writable(Target(DirInRepo(w, subDir), creates[i]), b.brokenPaths)
        ==> r == Err(WriteFailed(Target(DirInRepo(w, subDir), creates[i])))
    // once everything is staged: status, commit and push decide
    ensures ReachesCommit(w, b, subDir, creates, deletes) && b.statusFails ==> r == Err(StatusFailed)
    ensures ReachesCommit(w, b, subDir, creates, deletes) && !b.statusFails
         && WantedTree(w, b.checkout.value.tree, subDir, creates, deletes) == b.checkout.value.tree
        ==> r == Ok(NoChanges)
    ensures ReachesCommit(w, b, subDir, creates, deletes) && !b.statusFails
         && WantedTree(w, b.checkout.value.tree, subDir, creates, deletes) != b.checkout.value.tree
        ==> r == (if b.commitFails then Err(CommitFailed)
                  else if b.pushFails then Err(PushFailed)
                  else Ok(Pushed(w.author, CommitMessage(Action(creates), workPlacementName),
                                 WantedTree(w, b.checkout.value.tree, subDir, creates, deletes))))
  {
    if |creates| == 0 && |deletes| == 0 && subDir == "" then Ok(NothingToDo)
    else
      var dir := DirInRepo(w, subDir);
      match b.checkout
      case None => Err(SetupFailed)
      case Some(co) =>
        match DeleteExistingFiles(subDir != "", dir, deletes, co.tree, b.brokenPaths)
        case Err(e) => Err(e)
        case Ok(pruned) =>
          match CreateWorkloads(co.root, dir, creates, pruned, b.brokenPaths)
          case Escaped(p) => Ok(PathRejected(p))
          case NotWritten(p) => Err(WriteFailed(p))
          case AllWritten(staged) =>
            CommitAndPush(w, b, co.tree, staged, Action(creates), workPlacementName)
  }
}

=== FILE: results.dfy ===
/** Failure-carrying values used throughout the model: Go's `(value, error)`
    return pairs become `Result`, optional collaborator faults become `Option`. */
module Results {

  datatype Option<+T> = None | Some(value: T)

  datatype Result<+T, +E> = Ok(value: T) | Err(error: E)
}

=== FILE: types.dfy ===
/** The records the writer is built from and the outcomes of its calls. */
module Types {
  import opened Results
  import opened Worktree

  /** The transport authentication captured once at construction. */
  datatype Auth =
    | NoAuth
    | SshKeys(user: string, privateKey: Bytes, knownHosts: Bytes)
    | BasicAuth(username: Bytes, password: Bytes)

  datatype GitServer = GitServer(url: string, branch: string, auth: Auth)

  datatype Author = Author(name: string, email: string)

  /** A constructed writer: where to clone from, who commits, and the base path
      of this destination inside the repository. */
  datatype GitWriter = GitWriter(server: GitServer, author: Author, path: string)

  /** One file to create or overwrite, relative to the target directory. */
  datatype Workload = Workload(filepath: string, content: Bytes)

  /** A fresh clone: the absolute temporary root it was cloned into and the
      files of the branch tip. */
  datatype Checkout = Checkout(root: string, tree: Tree)

  /** The behaviour of the collaborators one call talks to: the temporary
      directory and clone (`None` when either fails), the worktree keys whose
      removal or write-and-stage fails, and the status, commit and push calls. */
  datatype Backend = Backend(
    checkout: Option<Checkout>,
    brokenPaths: set<string>,
    statusFails: bool,
    commitFails: bool,
    pushFails: bool)

  /** The non-nil errors a call returns. */
  datatype GitError =
    | SetupFailed
    | RemoveFailed(path: string)
    | WriteFailed(path: string)
    | StatusFailed
    | CommitFailed
    | PushFailed
    | FileNotFound
    | ReadFailed(path: string)

  /** What a call that returns nil did. */
  datatype Effect =
    | NothingToDo
    | PathRejected(absolutePath: string)
    | NoChanges
    | Pushed(author: Author, message: string, tree: Tree)
}

=== FILE: worktree.dfy ===
/** The working copy of a cloned branch, as the writer sees it through the
    worktree's filesystem: a map from file keys to file contents. A key is a
    path relative to the clone's root, cleaned and without a leading "/".
    Git tracks files only, so a directory exists exactly when some file lies
    beneath it.

    The writer reaches that filesystem through go-git, which roots it at the
    clone. How it reads a path is therefore an assumption of this model, not
    something the writer fixes: a path is read below the clone's root whether
    or not it starts with "/", and a path whose cleaned form climbs out with a
    leading ".." is refused. */
module Worktree {
  import opened Paths

  newtype byte = b: int | 0 <= b < 256

  type Bytes = seq<byte>

  type Tree = map<string, Bytes>

  /** `p` stays inside the worktree: once cleaned it has no leading "..".
      The worktree's filesystem is assumed to refuse every other path. */
  predicate Inside(p: string)
  {
    |Names(p)| == 0 || Names(p)[0] != ".."
  }

  /** The key of the file or directory that `p` names. With the worktree's
      filesystem taken to be rooted at the clone, `p` is read relative to that
      root whether or not it starts with "/"; "." is the root itself. */
  function Key(p: string): string
  {
    if |Names(p)| == 0 then "." else JoinWith(Names(p))
  }

  /** `k` is the key `p` itself or lies inside the directory `p`; "." is the
      worktree root and holds every key. */
  predicate Covers(p: string, k: string)
  {
    k == p || p == "." || HasPrefix(k, p + "/")
  }

  /** The path `p` names the file `k` or a directory holding it. */
  predicate Reaches(p: string, k: string)
  {
    Inside(p) && Covers(Key(p), k)
  }

  /** `Filesystem.Lstat(p)` succeeds: `p` is the clone's root, which always
      exists, or a file, or a directory holding a file. */
  predicate Exists(t: Tree, p: string)
    ensures Inside(p) && Key(p) in t ==> Exists(t, p)
    ensures !Inside(p) ==> !Exists(t, p)
    ensures Inside(p) && Key(p) == "." ==> Exists(t, p)
    ensures Exists(t, p) && Key(p) != "." ==> exists k :: k in t && Reaches(p, k)
  {
    assert Inside(p) ==> Reaches(p, Key(p));
    Inside(p) && (Key(p) == "." || exists k :: k in t && Reaches(p, k))
  }

  /** `Worktree.Remove(p)`: removes the file `p`, or every file of the directory `p`. */
  function RemoveTree(t: Tree, p: string): (r: Tree)
    ensures forall k :: k in r <==> k in t && !Reaches(p, k)
    ensures forall k :: k in r ==> r[k] == t[k]
    ensures !Exists(t, p) ==> r == t
    ensures Key(p) != "." ==> !Exists(r, p)
    ensures Inside(p) && Key(p) == "." ==> r == map[]
  {
    map k | k in t && !Reaches(p, k) :: t[k]
  }

  /** The key of a path is its cleaned form read below the root: a relative
      path's key is its cleaning, and a rooted path's key is its cleaning
      without the leading "/". */
  lemma KeyIsCleanBelowRoot(p: string)
    ensures !Rooted(p) ==> Key(p) == Clean(p)
    ensures Rooted(p) && Clean(p) == "/" ==> Key(p) == "."
    ensures Rooted(p) && Clean(p) != "/" ==> "/" + Key(p) == Clean(p)
  {
    SplitJoinRoundTrip(p);
    ResolvedStack([], Split(p), Rooted(p));
    if |Names(p)| > 0 {
      JoinWithStartsWithFirst(Names(p));
    }
  }

  /** "/p" and "p" exist together and remove the same files. */
  lemma LeadingSlashAlike(t: Tree, p: string)
    requires Inside(p)
    ensures Exists(t, "/" + p) == Exists(t, p)
    ensures RemoveTree(t, "/" + p) == RemoveTree(t, p)
  {
    KeyIgnoresLeadingSlash(p);
    assert forall k :: Reaches("/" + p, k) == Reaches(p, k);
  }

  /** "/p" and "p" name the same file whenever "p" stays inside the worktree. */
  lemma KeyIgnoresLeadingSlash(p: string)
    requires Inside(p)
    ensures Inside("/" + p)
    ensures Key("/" + p) == Key(p)
  {
    var q := "/" + p;
    assert q == "" + "/" + p;
    SplitAppend("", p);
    assert Split("") == [""];
    assert Split(q) == [""] + Split(p);
    assert ([""] + Split(p))[1..] == Split(p);
    assert Names(q) == ResolveFrom([], Split(p), true);
    if !Rooted(p) {
      RootedWalkAgrees([], Split(p));
    }
    SplitJoinRoundTrip(q);
    ResolvedStack([], Split(q), true);
  }
}
